=== FILE: README.md ===
# Story Circus: a Dafny model of the story-template engine

This project models the core of `story_circus.py`, a "mad-libs" story generator. It has four parts.

- **Recipes.** A recipe file has a title line and a body. The body is split into plain text and `{label[:id][/sublabel]}` placeholders (`StoryRecipe.__splitRecipe`, `RecipeLabel.__init__`). The recipe also keeps a table of the labels it uses and the non-empty sublabels used with each label.
- **Word lists.** A word list file has a title line and blocks. A block is a header line `label/sublabel/...` followed by one word option per line. A blank line closes the block (`WordList.__readWords`). Each option becomes a record from header part to value (`WordLabel.addWordOption`).
- **Compatibility.** A recipe keeps the indices of the word lists that declare every label and sublabel it uses (`checkWordListCompatibility`, `__labelsAreCompatible`).
- **Rendering.** A story resets every word label's pool and id memory (`WordLabel.reset`, `Story.__init__`). It then walks the recipe (`Story.generate`), and each placeholder is expanded by its word label (`WordLabel.expanded`):
  - A placeholder without an id draws any option, with replacement.
  - A placeholder with a new id takes an option out of the pool and remembers it.
  - A repeated id shows the remembered option again.

The modules follow the source's classes:

| module | models |
|---|---|
| `Outcomes` | `Option`, `Result` and the ways the source can raise |
| `Strings` | Python's `str.strip`, `str.split` and `str.find` |
| `Recipes` | `StoryRecipe` and `RecipeLabel` |
| `WordLists` | `WordList` and `WordLabel` without their draw state |
| `WordDraws` | `reset` and `expanded` |
| `Compatibility` | the compatibility check |
| `Stories` | `Story` |

Modelling choices:

- **File reads become inputs.** A recipe file becomes its first line and the rest of its text. A word-list file becomes its first line and its remaining lines.
- **Random indices become inputs.** The index `random.choice` or `random.randrange` would return is an input. A story takes one index per recipe piece, each within the range the source would draw from at that point (`PicksFit`).
- **Options are named by position.** `pool` holds the positions of the options not yet taken, in pool order, and `ids` maps each id to a position. The source holds the option dictionaries themselves. Positions make "two different ids never share an option" expressible even when two options are equal.
- **Raising becomes an error value.** Each way the source raises is an `Err` value:
  - `TooFewValues`: an option line with fewer parts than its header (IndexError).
  - `EmptyWordList`: an anonymous draw from a label without options (`random.choice([])`).
  - `PoolExhausted`: a new id once the pool is empty (`randrange(0)`).
  - `UnknownLabel`: a placeholder whose label the word list lacks (KeyError).
  - `MissingSublabel`: an option without the column read (KeyError).

Points where the code's behaviour is easy to misread, modelled as the code does it:

- **A header's first part is a column.** It is the label name, and `addWordOption` pairs it with an option's first value. So the header `Person/Name/Sound` needs three values per option line, not two, although the docstring of `addWordOption` (story_circus.py:231-234) speaks of one word per sublabel.
- **Every word label is reset.** `Story.__init__` resets all word labels of the word list, not only the ones the recipe uses.
- **A sublabel is checked against the whole header.** The check reads `WordLabel.labels`, which includes the label name. So a recipe may use the label name itself as a sublabel.
- **An unterminated `{` is not an error.** The splitting loop never ends on it: `find` returns -1 and the cursor goes back to 0. The model requires every `{` to be followed by a `}` (`BracesClosed`) rather than inventing an error for it.
- **An empty sublabel is not checked.** A placeholder such as `{Animal:1/}` has the sublabel "". The label table leaves it out, because Python treats "" as false, so the check never looks for it. The expansion still reads column "". That column exists only when the label's header has an empty `/`-part, as in `Animal/`; otherwise the story fails on that placeholder. `CompatibleOnlyRunsOut` therefore requires that no placeholder has an empty sublabel.
- **The source does not check compatibility before rendering.** Rendering with any word list is modelled with all its failure modes. `CompatibleOnlyRunsOut` states what compatibility buys.

## Model

| member | source | states |
|---|---|---|
| Strings.StripInfix | story_circus.py:187 | a stripped line is a contiguous part of the line with only whitespace cut from both sides |
| Strings.StripEnds | story_circus.py:187 | a stripped line neither starts nor ends with whitespace |
| Strings.StripBlank | story_circus.py:190 | a line strips to "" exactly when it is all whitespace, which is when the reader treats it as blank |
| Strings.Find | story_circus.py:67 | the answer is -1 exactly when the character does not occur from the start position on; otherwise it is the first position at or after the start that holds it |
| Strings.JoinSplit | story_circus.py:236 | no part of `str.split` contains the separator, and joining the parts with it gives back the line |
| Strings.SplitJoin | story_circus.py:236 | splitting a join of separator-free parts gives back those parts, so the split always has at least one part |
| Recipes.ParseRecipeLabelFields | story_circus.py:135-150 | the label is the text before the first ':'; an id is present exactly when a ':' follows and runs to the next ':' or '/'; a sublabel is present exactly when a '/' ends the id and runs to the next ':' or '/'; further parts are ignored |
| Recipes.SplitRecipe | story_circus.py:64-96 | the pieces concatenate back to the body; the last piece is plain text, possibly empty; no plain piece holds '{'; every other plain piece is non-empty and followed by a placeholder; every placeholder is '{', text without '}', '}' |
| Recipes.SplitPlaceholder | story_circus.py:80-96 | at a '{' the text up to the next '}' becomes one placeholder and the rest splits with the same guarantees |
| Recipes.SplitUnsplit | story_circus.py:64-96 | every well-shaped piece sequence is what the split returns for its own concatenation, so the split is the inverse of concatenation |
| Recipes.CollectLabels | story_circus.py:88-94 | the keys are exactly the labels placeholders use; each label's list holds exactly the non-empty sublabels used with it, with no repeats |
| Recipes.ParseStoryRecipe | story_circus.py:58-62 | the title is the stripped first line; the recipe is the split of the stripped rest; the labels are collected from it; no word list is marked safe yet |
| WordLists.MakeRecord | story_circus.py:236-239 | an option line yields a record exactly when it has at least as many '/'-parts as the header, and fails with too few values otherwise |
| WordLists.MakeRecordSpec | story_circus.py:236-240 | the record's keys are exactly the header parts, including the label name at part 0; each key holds the value at the last position where it occurs; extra values are ignored |
| WordLists.AddWordOption | story_circus.py:227-240 | on success the header is unchanged, the earlier options are kept in order, and exactly one record is appended that pairs every header part with the line's value at that part's last position; a line with fewer '/'-parts than the header is refused with too few values |
| WordLists.ReadLine | story_circus.py:186-203 | one line keeps the tables well formed: labels and words share their keys, each header starts with its own label name and continues with its sublabels, and every record has exactly the header's parts as keys; only too-few-values can fail |
| WordLists.ReadLines | story_circus.py:183-203 | reading any sequence of lines keeps the tables well formed, and can fail only with too few values |
| WordLists.ReadLinesAppend | story_circus.py:186-203 | reading is a left fold: lines `a + b` read like `a` followed by `b` from where `a` stopped |
| WordLists.ParseWordList | story_circus.py:179-181 | the name is the stripped title line; the tables are exactly the ones reading the lines from an empty reader builds, so ReadBlock and LaterBlockReplaces describe them; they are well formed; and parsing succeeds exactly when reading the lines does |
| WordLists.ReadBlock | story_circus.py:189-201 | after a blank line, a header line declares its label with the other parts as sublabels and the option lines become its records in order; the block fails exactly when an option line has too few values |
| WordLists.LaterBlockReplaces | story_circus.py:194-197 | a later block of an already declared label replaces the earlier one entirely; every other label keeps what the earlier lines gave it |
| WordDraws.Reset | story_circus.py:242-245 | after a reset the pool holds every option once, in order, no id is remembered, and the partition invariant `|pool| + |ids| == |words|` holds |
| WordDraws.Expanded | story_circus.py:247-264 | the text is the chosen option's value for the sublabel, or for the label name when there is no sublabel; an anonymous draw takes option `pick` and changes nothing; a remembered id reuses its option and changes nothing; a new id moves exactly pool entry `pick` to the id; the partition invariant is kept; each failure has exactly its cause |
| WordDraws.TakeKeepsPartition | story_circus.py:261-263 | moving one pool entry to a new id keeps every option either in the pool once or held by exactly one id |
| Compatibility.LabelsAreCompatible | story_circus.py:111-118 | the answer is true exactly when the word list declares every recipe label and each label's header holds every sublabel listed for it |
| Compatibility.CheckWordListCompatibility | story_circus.py:98-109 | the safe list holds exactly the indices of the compatible word lists, in increasing order; nothing else in the recipe changes |
| Compatibility.CompatibleMeansCovered | story_circus.py:98-118 | compatibility with the recipe's label table is the same as covering every label and non-empty sublabel some placeholder uses |
| Stories.ResetAll | story_circus.py:276-283 | a story starts with every word label of the word list reset: full pool, no ids |
| Stories.MemoryConsistent | story_circus.py:261-264 | while ids are remembered, two placeholders of one label with ids show the same option exactly when their ids are equal |
| Stories.RenderFrom | story_circus.py:287-294 | the rest of the recipe renders piece by piece: plain text as is, each placeholder as its label's option for its column, same-id placeholders sharing an option and different ids getting different ones, anonymous ones showing the option their index names; or it stops with the error of the first piece that does not go through, where a placeholder goes through when its label is known, an anonymous draw's indexed option has the column, a new id finds the pool non-empty, and some option of the label has the column |
| Stories.Render | story_circus.py:276-294 | after the reset, the recipe renders with the guarantees above, or fails with the error of the first piece that does not go through in that sense |
| Stories.Generate | story_circus.py:285-294 | the story is the in-order concatenation of a rendering's pieces, or the error of the first piece that does not go through: an unknown label, an empty option list, an exhausted pool, or a missing column |
| Stories.FirstFailureUnique | story_circus.py:247-264 | with a word list the reader built, a failing piece never goes through, so the first failing piece is unique: the source raises at exactly one place |
| Stories.CompatibleOnlyRunsOut | story_circus.py:98-118 | with a word list the reader built and found compatible, and no empty sublabel, a story can fail only by running out of options, never for an unknown label or a missing column |
| Stories.PlainStory | story_circus.py:64-72 | a body without '{' is one plain piece, and every story of that recipe is the stripped body, whatever the word list |

## Left out

- `loadStoryRecipes`, `loadWordLists` and `checkStoryCompatibilities` (story_circus.py:297-322) list directories and open files; they are I/O plumbing.
- `gui.py` and `cli.py` are presentation shells. `cli.py` also calls names `story_circus.py` does not define.
- The random distributions are left out: uniformity and independence of `random.choice` and `random.randrange` are not stated, and their results are inputs.
- Python's `strip` is modelled with the fixed set of characters Python 3 treats as whitespace, by code point. There is no Unicode database.
- Stories.RenderFrom: a rendering states which option an anonymous placeholder and a repeated id show, but not which pool entry a new id takes. That step is stated by WordDraws.Expanded, which takes entry `pick` of the pool in pool order.
- Stories.Render: the same as for Stories.RenderFrom; which pool entry a new id takes is stated only by WordDraws.Expanded.
- Stories.Generate: a rendering states which option an anonymous placeholder and a repeated id show, but not which pool entry a new id takes. That step is stated by WordDraws.Expanded, which takes entry `pick` of the pool in pool order.
- WordDraws.Expanded: the pool holds positions of options instead of the option dictionaries. Equal options at different positions are told apart, which the source's `pop` does not need.
- Recipes.CollectLabels: the label table is built by a separate pass over the split pieces. The source builds it inside the splitting loop, in the same order.
- The shared mutable `WordLabel` objects are left out: a story's draw state is a value threaded through the rendering. Two stories rendered at once against one word list, which the source would let interfere, are not modelled.
- Recipes.SplitRecipe: requires every '{' to be followed by a '}'. On other bodies the source's loop does not end, and that non-termination is not modelled.
- Stories.Generate: requires every WordLabel's header to start with its own label name, as the reader always builds it. It also requires one random index per piece in range.

=== FILE: compatibility.dfy ===
/** Which word lists can fill a story recipe (story_circus.py,
    StoryRecipe.checkWordListCompatibility and __labelsAreCompatible). */
module Compatibility {
  import opened Recipes
  import opened WordLists

  /** The word list declares every label the recipe lists, and each such
      label's header holds every sublabel the recipe lists for it. The header
      is the whole declaration line, so it includes the label name itself. */
  ghost predicate Compatible(labels: map<string, seq<string>>, wl: WordList) {
    forall name :: name in labels ==>
      && name in wl.labels
      && name in wl.words
      && forall k :: 0 <= k < |labels[name]| ==> labels[name][k] in wl.words[name].labels
  }

  /** A word list the reader could have built: every declared label has a
      WordLabel. */
  predicate Declared(wl: WordList) {
    wl.labels.Keys <= wl.words.Keys
  }

  /** StoryRecipe.__labelsAreCompatible: checks the recipe's labels one by
      one, each label's sublabels in order, and answers false at the first
      one the word list lacks. */
  method LabelsAreCompatible(labels: map<string, seq<string>>, wl: WordList) returns (ok: bool)
    requires Declared(wl)
    ensures ok <==> Compatible(labels, wl)
  {
    var todo := labels.Keys;
    while todo != {}
      invariant todo <= labels.Keys
      invariant forall name :: name in labels && name !in todo ==>
        && name in wl.labels && name in wl.words
        && forall k :: 0 <= k < |labels[name]| ==> labels[name][k] in wl.words[name].labels
      decreases |todo|
    {
      var name :| name in todo;
      if name !in wl.labels {
        return false;
      }
      var subs := labels[name];
      var i := 0;
      while i < |subs|
        invariant 0 <= i <= |subs|
        invariant forall k :: 0 <= k < i ==> subs[k] in wl.words[name].labels
      {
        if subs[i] !in wl.words[name].labels {
          return false;
        }
        i := i + 1;
      }
      todo := todo - {name};
    }
    return true;
  }

  predicate Increasing(s: seq<nat>) {
    forall i, j :: 0 <= i < j < |s| ==> s[i] < s[j]
  }

  /** StoryRecipe.checkWordListCompatibility: the recipe with its list of safe
      word lists replaced by the indices, in increasing order, of exactly the
      compatible ones. */
  method CheckWordListCompatibility(recipe: StoryRecipe, wordlists: seq<WordList>) returns (r: StoryRecipe)
    requires forall i :: 0 <= i < |wordlists| ==> Declared(wordlists[i])
    ensures r.name == recipe.name && r.labels == recipe.labels && r.recipe == recipe.recipe
    ensures Increasing(r.safeWordlists)
    ensures forall i :: 0 <= i < |r.safeWordlists| ==> r.safeWordlists[i] < |wordlists|
    ensures forall i :: 0 <= i < |wordlists| ==> (i in r.safeWordlists <==> Compatible(recipe.labels, wordlists[i]))
  {
    var safe: seq<nat> := [];
    var i := 0;
    while i < |wordlists|
      invariant 0 <= i <= |wordlists|
      invariant Increasing(safe)
      invariant forall k :: 0 <= k < |safe| ==> safe[k] < i
      invariant forall j :: 0 <= j < i ==> (j in safe <==> Compatible(recipe.labels, wordlists[j]))
    {
      var ok := LabelsAreCompatible(recipe.labels, wordlists[i]);
      if ok {
        safe := safe + [i];
      }
      i := i + 1;
    }
    r := recipe.(safeWordlists := safe);
  }

  /** Read against the recipe text: a word list is compatible with a recipe's
      label table exactly when it declares every label a placeholder uses, and
      each such label's header holds every non-empty sublabel used with it. */
  lemma {:induction false} CompatibleMeansCovered(segs: seq<Segment>, labels: map<string, seq<string>>, wl: WordList)
    requires LabelsOf(segs, labels)
    ensures Compatible(labels, wl) <==>
      forall name :: Uses(segs, name) ==>
        && name in wl.labels && name in wl.words
        && forall sub :: UsesSublabel(segs, name, sub) ==> sub in wl.words[name].labels
  {
    if Compatible(labels, wl) {
      forall name | Uses(segs, name)
        ensures name in wl.labels && name in wl.words
        ensures forall sub :: UsesSublabel(segs, name, sub) ==> sub in wl.words[name].labels
      {
        forall sub | UsesSublabel(segs, name, sub) ensures sub in wl.words[name].labels {
          var k :| 0 <= k < |labels[name]| && labels[name][k] == sub;
        }
      }
    }
  }
}

=== FILE: outcomes.dfy ===
/** Optional values, the failures the story engine can raise, and a result type
    that carries either a value or one of those failures. */
module Outcomes {

  /** Python's `None` or a present value. */
  datatype Option<+T> = None | Some(value: T)

  /** The exceptions the engine raises, one constructor per cause. */
  datatype Error =
    /** A word option line has fewer '/'-separated values than its label header
        has parts (an IndexError in the source). */
    | TooFewValues(line: string)
    /** An anonymous draw from a label that has no word options
        (`random.choice` of an empty list). */
    | EmptyWordList(name: string)
    /** A new id was drawn while the label's pool was empty (`randrange(0)`). */
    | PoolExhausted(name: string)
    /** A placeholder names a label the word list does not declare (a KeyError). */
    | UnknownLabel(name: string)
    /** The chosen record has no value for the requested sublabel (a KeyError). */
    | MissingSublabel(name: string, sublabel: string)

  datatype Result<+T> = Ok(value: T) | Err(error: Error)
}

=== FILE: recipes.dfy ===
/** Story recipes: the body of a recipe file split into plain text and
    `{label[:id][/sublabel]}` placeholders, and the table of labels and
    sublabels the recipe uses (story_circus.py, classes StoryRecipe and
    RecipeLabel). */
module Recipes {
  import opened Outcomes
  import opened Strings

  /** A parsed placeholder. `name` is the source's `label` attribute (the word
      `label` is reserved in Dafny); `id` and `sublabel` are `None` when absent. */
  datatype RecipeLabel = RecipeLabel(name: string, id: Option<string>, sublabel: Option<string>)

  /** One piece of a recipe: text shown as is, or a placeholder, kept as the
      `{...}` text it was read from. */
  datatype Segment = Plain(text: string) | Placeholder(source: string)
  {
    /** The recipe text this piece was cut from. */
    function Source(): string {
      match this
      case Plain(t) => t
      case Placeholder(src) => src
    }

    /** The RecipeLabel the source builds from a placeholder's text. */
    function Tag(): RecipeLabel
      requires Placeholder?
    {
      ParseRecipeLabel(source)
    }
  }

  /** A parsed recipe file; `safeWordlists` holds the indices of the word lists
      found compatible with it. */
  datatype StoryRecipe = StoryRecipe(
    name: string,
    labels: map<string, seq<string>>,
    recipe: seq<Segment>,
    safeWordlists: seq<nat>)

  // ---------------------------------------------------------------------------
  // Placeholder fields

  /** Python's `content[1:-1]`: the text between the braces. */
  function Inner(content: string): string {
    if |content| >= 2 then content[1..|content| - 1] else ""
  }

  /** RecipeLabel.__init__ on the `{...}` text of a placeholder. */
  function ParseRecipeLabel(content: string): RecipeLabel {
    var parts := Split(Inner(content), ':');
    if |parts| == 1 then
      RecipeLabel(parts[0], None, None)
    else
      var suffix := Split(parts[1], '/');
      RecipeLabel(parts[0], Some(suffix[0]), if |suffix| > 1 then Some(suffix[1]) else None)
  }

  /** Where the fields come from: the label is the text before the first ':';
      the id is present exactly when a ':' follows, and is the text after it up
      to the next ':' or '/'; the sublabel is present exactly when a '/' ends
      the id, and is the text after that '/' up to the next ':' or '/'. Any
      further ':' and '/' parts are ignored. */
  lemma {:induction false} ParseRecipeLabelFields(content: string)
    ensures var inner := Inner(content); var r := ParseRecipeLabel(content);
      && FieldAt(inner, 0, r.name, {':'})
      && (r.id.Some? <==> |r.name| < |inner|)
      && (r.id.Some? ==> FieldAt(inner, |r.name| + 1, r.id.value, {':', '/'}))
      && (r.sublabel.Some? <==>
            r.id.Some? && |r.name| + 1 + |r.id.value| < |inner| && inner[|r.name| + 1 + |r.id.value|] == '/')
      && (r.sublabel.Some? ==> FieldAt(inner, |r.name| + |r.id.value| + 2, r.sublabel.value, {':', '/'}))
  {
    var inner := Inner(content);
    HeadField(inner, ':');
    if |Split(inner, ':')| > 1 {
      LabelFields(inner, ParseRecipeLabel(content));
    }
  }

  lemma {:induction false} LabelFields(inner: string, r: RecipeLabel)
    requires |Split(inner, ':')| > 1
    requires var parts := Split(inner, ':'); var suffix := Split(parts[1], '/');
      r == RecipeLabel(parts[0], Some(suffix[0]), if |suffix| > 1 then Some(suffix[1]) else None)
    ensures FieldAt(inner, 0, r.name, {':'})
    ensures |r.name| < |inner|
    ensures FieldAt(inner, |r.name| + 1, r.id.value, {':', '/'})
    ensures r.sublabel.Some? <==>
      |r.name| + 1 + |r.id.value| < |inner| && inner[|r.name| + 1 + |r.id.value|] == '/'
    ensures r.sublabel.Some? ==> FieldAt(inner, |r.name| + |r.id.value| + 2, r.sublabel.value, {':', '/'})
  {
    var parts := Split(inner, ':');
    HeadField(inner, ':');
    var n := |parts[0]| + 1;
    IdField(inner, parts, n);
    var suffix := Split(parts[1], '/');
    if |suffix| > 1 {
      SublabelField(inner, n, suffix);
    }
  }

  /** The id is read from the text after the first ':'. */
  lemma {:induction false} IdField(inner: string, parts: seq<string>, n: nat)
    requires parts == Split(inner, ':') && |parts| > 1 && n == |parts[0]| + 1
    ensures n <= |inner| && Split(inner[n..], ':')[0] == parts[1]
    ensures var suffix := Split(parts[1], '/');
      && FieldAt(inner, n, suffix[0], {':', '/'})
      && (|suffix| > 1 <==> n + |suffix[0]| < |inner| && inner[n + |suffix[0]|] == '/')
  {
    SplitHead(inner, ':');
    var after := inner[n..];
    assert Split(after, ':')[0] == parts[1];
    NestedHead(after, ':', '/');
    var suffix := Split(parts[1], '/');
    FieldShift(inner, n, suffix[0], {':', '/'});
    assert n + |suffix[0]| < |inner| ==> inner[n + |suffix[0]|] == after[|suffix[0]|];
  }

  /** The sublabel is read from the text after the '/' that ends the id. */
  lemma {:induction false} SublabelField(inner: string, n: nat, suffix: seq<string>)
    requires n <= |inner| && suffix == Split(Split(inner[n..], ':')[0], '/') && |suffix| > 1
    ensures FieldAt(inner, n + |suffix[0]| + 1, suffix[1], {':', '/'})
  {
    var after := inner[n..];
    var m := |suffix[0]| + 1;
    SublabelNext(after, suffix);
    var rest := inner[n + m..];
    assert after[m..] == rest;
    NestedFirst(rest, ':', '/');
    FieldShift(inner, n + m, suffix[1], {':', '/'});
  }

  lemma {:induction false} SublabelNext(after: string, suffix: seq<string>)
    requires suffix == Split(Split(after, ':')[0], '/') && |suffix| > 1
    ensures |suffix[0]| + 1 <= |after|
    ensures suffix[1] == Split(Split(after[|suffix[0]| + 1..], ':')[0], '/')[0]
  {
    NestedSecond(after, ':', '/', Split(after, ':')[0], suffix);
  }

  lemma {:induction false} NestedFirst(s: string, a: char, b: char)
    requires a != b
    ensures FieldAt(s, 0, Split(Split(s, a)[0], b)[0], {a, b})
  {
    NestedField(s, a, b, Split(s, a)[0], Split(Split(s, a)[0], b));
  }

  // ---------------------------------------------------------------------------
  // Splitting the body

  /** Every '{' has a '}' somewhere after it. Without this the source's
      splitting loop never ends: when no '}' follows, `find` returns -1 and the
      cursor goes back to 0. */
  predicate BracesClosed(s: string) {
    forall i :: 0 <= i < |s| && s[i] == '{' ==> '}' in s[i + 1..]
  }

  /** A placeholder piece is a '{', then text without '}', then '}'. */
  predicate WellFormedPiece(seg: Segment) {
    seg.Placeholder? ==>
      var src := seg.source;
      && |src| >= 2 && src[0] == '{' && src[|src| - 1] == '}'
      && '}' !in src[1..|src| - 1]
  }

  /** The shape of every split: it ends with a (possibly empty) plain piece, no
      plain piece holds a '{', and every other plain piece is non-empty and is
      followed by a placeholder. */
  predicate Canonical(segs: seq<Segment>) {
    && |segs| >= 1 && segs[|segs| - 1].Plain?
    && (forall i :: 0 <= i < |segs| ==> WellFormedPiece(segs[i]))
    && (forall i :: 0 <= i < |segs| && segs[i].Plain? ==> '{' !in segs[i].text)
    && (forall i :: 0 <= i < |segs| - 1 && segs[i].Plain? ==> segs[i].text != [] && segs[i + 1].Placeholder?)
  }

  /** The recipe text again: plain pieces and the `{...}` source of every
      placeholder, in order. */
  function Unsplit(segs: seq<Segment>): string {
    if |segs| == 0 then "" else segs[0].Source() + Unsplit(segs[1..])
  }

  /** StoryRecipe.__splitRecipe, applied to what is left of the body after the
      cursor: text before the next '{' becomes a plain piece, and when no '{'
      is left the rest becomes the final plain piece. */
  function SplitRecipe(t: string): (r: seq<Segment>)
    requires BracesClosed(t)
    ensures Canonical(r)
    ensures Unsplit(r) == t
    ensures |t| > 0 && t[0] == '{' ==> r[0].Placeholder?
    decreases |t|, 1
  {
    var b := Find(t, '{', 0);
    if b == -1 then
      UnsplitCons(Plain(t), []);
      [Plain(t)]
    else if b != 0 then
      BracesClosedSuffix(t, b);
      var rest := SplitPlaceholder(t[b..]);
      PlainStep(t, b, rest);
      [Plain(t[..b])] + rest
    else
      SplitPlaceholder(t)
  }

  /** The loop iteration that finds the cursor on a '{': the text up to the
      next '}' becomes a placeholder and the cursor moves past it. */
  function SplitPlaceholder(t: string): (r: seq<Segment>)
    requires BracesClosed(t) && |t| > 0 && t[0] == '{'
    ensures Canonical(r)
    ensures Unsplit(r) == t
    ensures r[0].Placeholder?
    decreases |t|, 0
  {
    assert '}' in t[1..];
    var e := Find(t, '}', 1);
    PlaceholderPiece(t, e);
    BracesClosedSuffix(t, e + 1);
    var rest := SplitRecipe(t[e + 1..]);
    var src := t[..e + 1];
    PlaceholderStep(t, src, rest);
    [Placeholder(src)] + rest
  }

  lemma {:induction false} PlainStep(t: string, b: nat, rest: seq<Segment>)
    requires 0 < b < |t| && t[b] == '{' && '{' !in t[..b]
    requires Canonical(rest) && Unsplit(rest) == t[b..] && rest[0].Placeholder?
    ensures Canonical([Plain(t[..b])] + rest)
    ensures Unsplit([Plain(t[..b])] + rest) == t
  {
    ConsCanonical(Plain(t[..b]), rest);
    UnsplitCons(Plain(t[..b]), rest);
    assert t == t[..b] + t[b..];
  }

  lemma {:induction false} PlaceholderStep(t: string, src: string, rest: seq<Segment>)
    requires |src| <= |t| && src == t[..|src|]
    requires WellFormedPiece(Placeholder(src))
    requires Canonical(rest) && Unsplit(rest) == t[|src|..]
    ensures Canonical([Placeholder(src)] + rest)
    ensures Unsplit([Placeholder(src)] + rest) == t
  {
    var x := Placeholder(src);
    ConsCanonical(x, rest);
    UnsplitCons(x, rest);
    assert t == t[..|src|] + t[|src|..];
  }

  lemma {:induction false} PlaceholderPiece(t: string, e: int)
    requires |t| > 0 && t[0] == '{' && '}' in t[1..] && e == Find(t, '}', 1)
    ensures 1 <= e < |t|
    ensures var src := t[..e + 1]; WellFormedPiece(Placeholder(src))
  {
    var src := t[..e + 1];
    assert src[0] == '{';
    assert src[|src| - 1] == '}';
    assert src[1..|src| - 1] == t[1..e];
    assert '}' !in src[1..|src| - 1];
  }

  lemma {:induction false} BracesClosedSuffix(t: string, k: nat)
    requires BracesClosed(t) && k <= |t|
    ensures BracesClosed(t[k..])
  {
    forall i | 0 <= i < |t[k..]| && t[k..][i] == '{' ensures '}' in t[k..][i + 1..] {
      assert t[k + i] == '{';
      assert t[k..][i + 1..] == t[k + i + 1..];
    }
  }

  lemma {:induction false} UnsplitCons(x: Segment, rest: seq<Segment>)
    ensures Unsplit([x] + rest) == x.Source() + Unsplit(rest)
  {
    assert ([x] + rest)[1..] == rest;
  }

  lemma {:induction false} ConsCanonical(x: Segment, rest: seq<Segment>)
    requires Canonical(rest) && WellFormedPiece(x)
    requires x.Plain? ==> '{' !in x.text && x.text != [] && rest[0].Placeholder?
    ensures Canonical([x] + rest)
  {
    var r := [x] + rest;
    assert r[|r| - 1] == rest[|rest| - 1];
    forall i | 0 <= i < |r| ensures WellFormedPiece(r[i]) {
      if i > 0 { assert r[i] == rest[i - 1]; }
    }
    forall i | 0 <= i < |r| && r[i].Plain? ensures '{' !in r[i].text {
      if i > 0 { assert r[i] == rest[i - 1]; }
    }
    forall i | 0 <= i < |r| - 1 && r[i].Plain? ensures r[i].text != [] && r[i + 1].Placeholder? {
      if i > 0 { assert r[i] == rest[i - 1] && r[i + 1] == rest[i]; }
    }
  }

  lemma {:induction false} CanonicalTail(segs: seq<Segment>)
    requires Canonical(segs) && |segs| > 1
    ensures Canonical(segs[1..])
  {
    var r := segs[1..];
    forall i | 0 <= i < |r| ensures r[i] == segs[i + 1] { }
  }

  lemma {:induction false} BracesClosedConcat(x: string, y: string)
    requires BracesClosed(x) && BracesClosed(y)
    ensures BracesClosed(x + y)
  {
    var s := x + y;
    forall i | 0 <= i < |s| && s[i] == '{' ensures '}' in s[i + 1..] {
      if i < |x| {
        assert x[i] == '{';
        var j :| i + 1 <= j < |x| && x[j] == '}';
        assert s[j] == '}';
      } else {
        assert y[i - |x|] == '{';
        assert s[i + 1..] == y[i - |x| + 1..];
      }
    }
  }

  /** The other direction of the round trip: any sequence of pieces of the
      canonical shape is exactly what splitting its own text produces. So the
      split is the unique canonical decomposition of the body. */
  lemma {:induction false} SplitUnsplit(segs: seq<Segment>)
    requires Canonical(segs)
    ensures BracesClosed(Unsplit(segs))
    ensures SplitRecipe(Unsplit(segs)) == segs
    decreases |segs|, 2
  {
    if |segs| == 1 {
      SplitUnsplitLast(segs);
    } else if segs[0].Placeholder? {
      SplitUnsplitPlaceholder(segs);
      assert Find(Unsplit(segs), '{', 0) == 0;
    } else {
      SplitUnsplitPlain(segs);
    }
  }

  lemma {:induction false} SplitUnsplitLast(segs: seq<Segment>)
    requires Canonical(segs) && |segs| == 1
    ensures BracesClosed(Unsplit(segs))
    ensures SplitRecipe(Unsplit(segs)) == segs
  {
    var x := segs[0];
    assert segs == [x] + [];
    UnsplitCons(x, []);
    assert Unsplit(segs) == x.text;
    assert Find(x.text, '{', 0) == -1;
  }

  lemma {:induction false} SplitUnsplitPlain(segs: seq<Segment>)
    requires Canonical(segs) && |segs| > 1 && segs[0].Plain?
    ensures BracesClosed(Unsplit(segs))
    ensures SplitRecipe(Unsplit(segs)) == segs
    decreases |segs|, 0
  {
    var x, rest := segs[0], segs[1..];
    assert '{' !in x.text && x.text != [];
    CanonicalTail(segs);
    SplitUnsplitPlaceholder(rest);
    PlainRoundTrip(x.text, rest);
    HeadTail(segs);
  }

  lemma {:induction false} SplitUnsplitPlaceholder(segs: seq<Segment>)
    requires Canonical(segs) && segs[0].Placeholder?
    ensures Unsplit(segs)[0] == '{'
    ensures BracesClosed(Unsplit(segs))
    ensures SplitPlaceholder(Unsplit(segs)) == segs
    decreases |segs|, 1
  {
    var x, rest := segs[0], segs[1..];
    assert WellFormedPiece(x);
    CanonicalTail(segs);
    SplitUnsplit(rest);
    PlaceholderRoundTrip(x.source, rest);
    HeadTail(segs);
  }

  lemma {:induction false} HeadTail(segs: seq<Segment>)
    requires |segs| > 0
    ensures segs == [segs[0]] + segs[1..]
  {
  }

  /** A well-formed placeholder in front of pieces that split back to
      themselves splits back to itself. */
  lemma {:induction false} PlaceholderRoundTrip(src: string, rest: seq<Segment>)
    requires WellFormedPiece(Placeholder(src))
    requires BracesClosed(Unsplit(rest)) && SplitRecipe(Unsplit(rest)) == rest
    ensures var t := Unsplit([Placeholder(src)] + rest);
      && |t| > 0 && t[0] == '{' && BracesClosed(t)
      && SplitPlaceholder(t) == [Placeholder(src)] + rest
  {
    var u := Unsplit(rest);
    var t := Unsplit([Placeholder(src)] + rest);
    UnsplitCons(Placeholder(src), rest);
    assert t == src + u;
    PlaceholderText(src, u);
    PlaceholderUnfold(t, src, u);
  }

  /** Non-empty text without '{' in front of pieces that start with a
      placeholder and split back to themselves splits back to itself. */
  lemma {:induction false} PlainRoundTrip(a: string, rest: seq<Segment>)
    requires '{' !in a && a != []
    requires |Unsplit(rest)| > 0 && Unsplit(rest)[0] == '{'
    requires BracesClosed(Unsplit(rest)) && SplitPlaceholder(Unsplit(rest)) == rest
    ensures var t := Unsplit([Plain(a)] + rest);
      && BracesClosed(t) && SplitRecipe(t) == [Plain(a)] + rest
  {
    var u := Unsplit(rest);
    var t := Unsplit([Plain(a)] + rest);
    UnsplitCons(Plain(a), rest);
    assert t == a + u;
    PlainText(a, u);
    PlainUnfold(t, a, u);
  }

  /** One unfolding of SplitRecipe at a plain piece, once the next '{' is known. */
  lemma {:induction false} PlainUnfold(t: string, a: string, u: string)
    requires |a| >= 1 && t == a + u && BracesClosed(t) && BracesClosed(u) && |u| > 0 && u[0] == '{'
    requires Find(t, '{', 0) == |a|
    ensures SplitRecipe(t) == [Plain(a)] + SplitPlaceholder(u)
  {
    assert t[..|a|] == a && t[|a|..] == u;
  }

  /** One unfolding of SplitPlaceholder, once the closing '}' is known. */
  lemma {:induction false} PlaceholderUnfold(t: string, src: string, u: string)
    requires |src| >= 1 && t == src + u && t[0] == '{' && BracesClosed(t) && BracesClosed(u)
    requires Find(t, '}', 1) == |src| - 1
    ensures SplitPlaceholder(t) == [Placeholder(src)] + SplitRecipe(u)
  {
    assert t[..|src|] == src && t[|src|..] == u;
  }

  /** The string-level facts behind one plain step of the round trip. */
  lemma {:induction false} PlainText(a: string, u: string)
    requires '{' !in a && |u| > 0 && u[0] == '{' && BracesClosed(u)
    ensures var t := a + u;
      && BracesClosed(t) && Find(t, '{', 0) == |a| && t[..|a|] == a && t[|a|..] == u
  {
    var t := a + u;
    assert t[..|a|] == a && t[|a|..] == u;
    FindFirst(t, '{', 0, |a|);
    BracesClosedConcat(a, u);
  }

  /** The string-level facts behind one placeholder step of the round trip. */
  lemma {:induction false} PlaceholderText(src: string, u: string)
    requires WellFormedPiece(Placeholder(src)) && BracesClosed(u)
    ensures var t := src + u;
      && t[0] == '{' && BracesClosed(t)
      && Find(t, '}', 1) == |src| - 1 && t[..|src|] == src && t[|src|..] == u
  {
    var t := src + u;
    var n := |src|;
    assert t[..n] == src && t[n..] == u;
    assert t[1..n - 1] == src[1..n - 1];
    FindFirst(t, '}', 1, n - 1);
    assert BracesClosed(src) by {
      forall i | 0 <= i < |src| && src[i] == '{' ensures '}' in src[i + 1..] {
        assert src[i + 1..][n - 2 - i] == '}';
      }
    }
    BracesClosedConcat(src, u);
  }

  // ---------------------------------------------------------------------------
  // Labels a recipe uses

  /** Some placeholder of `segs` has label `name`. */
  predicate Uses(segs: seq<Segment>, name: string) {
    exists i :: 0 <= i < |segs| && segs[i].Placeholder? && segs[i].Tag().name == name
  }

  /** Some placeholder of `segs` has label `name` and the non-empty sublabel `sub`. */
  predicate UsesSublabel(segs: seq<Segment>, name: string, sub: string) {
    && sub != ""
    && exists i :: 0 <= i < |segs| && segs[i].Placeholder? && segs[i].Tag().name == name
                                   && segs[i].Tag().sublabel == Some(sub)
  }

  predicate NoDuplicates(s: seq<string>) {
    forall i, j :: 0 <= i < j < |s| ==> s[i] != s[j]
  }

  /** The bookkeeping the splitting loop does for one placeholder: make sure its
      label is a key, and append its sublabel unless it is absent, empty (Python
      treats "" as false) or already listed. */
  function NoteUse(labels: map<string, seq<string>>, tag: RecipeLabel): map<string, seq<string>> {
    var subs := if tag.name in labels then labels[tag.name] else [];
    var subs' :=
      if tag.sublabel.Some? && tag.sublabel.value != "" && tag.sublabel.value !in subs
      then subs + [tag.sublabel.value]
      else subs;
    labels[tag.name := subs']
  }

  /** StoryRecipe.labels: the placeholders' labels and sublabels, noted in
      recipe order. Its keys are exactly the labels used, each list holds
      exactly the non-empty sublabels used with that label, and no sublabel is
      listed twice. */
  function CollectLabels(segs: seq<Segment>): (labels: map<string, seq<string>>)
    ensures LabelsOf(segs, labels)
    decreases |segs|
  {
    if |segs| == 0 then map[]
    else
      var before := CollectLabels(segs[..|segs| - 1]);
      CollectStep(segs, before);
      Note(before, segs[|segs| - 1])
  }

  /** The labels after one more segment: a placeholder is noted, text is not. */
  function Note(before: map<string, seq<string>>, last: Segment): map<string, seq<string>> {
    if last.Plain? then before else NoteUse(before, last.Tag())
  }

  /** `labels` lists exactly what `segs` uses, without repeats. */
  ghost predicate LabelsOf(segs: seq<Segment>, labels: map<string, seq<string>>) {
    && (forall name :: name in labels <==> Uses(segs, name))
    && (forall name, sub :: name in labels ==> (sub in labels[name] <==> UsesSublabel(segs, name, sub)))
    && (forall name :: name in labels ==> NoDuplicates(labels[name]))
  }

  lemma {:induction false} CollectStep(segs: seq<Segment>, before: map<string, seq<string>>)
    requires |segs| > 0 && LabelsOf(segs[..|segs| - 1], before)
    ensures LabelsOf(segs, Note(before, segs[|segs| - 1]))
  {
    var pre, last := segs[..|segs| - 1], segs[|segs| - 1];
    assert segs == pre + [last];
    UsesSnoc(pre, last);
    if last.Placeholder? {
      NoteUseKeeps(before, last.Tag(), pre, pre + [last]);
    }
  }

  lemma {:induction false} UsesSnoc(pre: seq<Segment>, last: Segment)
    ensures forall name :: Uses(pre + [last], name) <==>
      Uses(pre, name) || (last.Placeholder? && last.Tag().name == name)
    ensures forall name, sub :: UsesSublabel(pre + [last], name, sub) <==>
      UsesSublabel(pre, name, sub)
      || (sub != "" && last.Placeholder? && last.Tag().name == name && last.Tag().sublabel == Some(sub))
  {
    var segs := pre + [last];
    forall i | 0 <= i < |pre| ensures segs[i] == pre[i] { }
    assert segs[|pre|] == last;
  }

  lemma {:induction false} NoteUseKeeps(before: map<string, seq<string>>, tag: RecipeLabel, pre: seq<Segment>, segs: seq<Segment>)
    requires LabelsOf(pre, before)
    requires forall name :: Uses(segs, name) <==> Uses(pre, name) || tag.name == name
    requires forall name, sub :: UsesSublabel(segs, name, sub) <==>
      UsesSublabel(pre, name, sub) || (sub != "" && tag.name == name && tag.sublabel == Some(sub))
    ensures LabelsOf(segs, NoteUse(before, tag))
  {
    var labels := NoteUse(before, tag);
    var subs := if tag.name in before then before[tag.name] else [];
    assert tag.name !in before ==> forall sub :: !UsesSublabel(pre, tag.name, sub);
    assert forall sub :: sub in subs <==> UsesSublabel(pre, tag.name, sub);
    forall name, sub | name in labels
      ensures sub in labels[name] <==> UsesSublabel(segs, name, sub)
    {
      if name != tag.name {
        assert labels[name] == before[name];
      }
    }
    forall name ensures name in labels <==> Uses(segs, name) {
      assert name in labels <==> name in before || name == tag.name;
    }
    forall name | name in labels ensures NoDuplicates(labels[name]) {
      if name == tag.name {
        assert NoDuplicates(subs);
        if labels[name] != subs {
          NoDuplicatesSnoc(subs, tag.sublabel.value);
        }
      } else {
        assert labels[name] == before[name];
      }
    }
  }

  lemma {:induction false} NoDuplicatesSnoc(s: seq<string>, x: string)
    requires NoDuplicates(s) && x !in s
    ensures NoDuplicates(s + [x])
  {
    var t := s + [x];
    forall i, j | 0 <= i < j < |t| ensures t[i] != t[j] {
      assert t[i] == s[i];
      if j < |s| { assert t[j] == s[j]; }
    }
  }

  // ---------------------------------------------------------------------------
  // The recipe file

  /** StoryRecipe.__init__ with the file replaced by its first line and the
      rest of its text: the title is the stripped first line, the recipe is
      the split of the stripped rest, the labels are collected from it, and no
      word list is marked compatible yet. */
  function ParseStoryRecipe(titleLine: string, rest: string): (r: StoryRecipe)
    requires BracesClosed(Strip(rest))
    ensures r.name == Strip(titleLine)
    ensures Canonical(r.recipe) && Unsplit(r.recipe) == Strip(rest)
    ensures LabelsOf(r.recipe, r.labels)
    ensures r.safeWordlists == []
  {
    var segs := SplitRecipe(Strip(rest));
    StoryRecipe(Strip(titleLine), CollectLabels(segs), segs, [])
  }
}

=== FILE: stories.dfy ===
/** One rendering of a story (story_circus.py, class Story): every word label
    of the word list is reset, then the recipe's pieces are appended in order,
    plain text as it is and each placeholder expanded by its word label. The
    random indices the expansions consume come in as `picks`, one per piece. */
module Stories {
  import opened Outcomes
  import opened Strings
  import opened Recipes
  import opened WordLists
  import opened WordDraws
  import opened Compatibility

  /** Every WordLabel's header starts with its own label name, as the word
      list reader builds them. */
  predicate Headed(words: map<string, WordLabel>) {
    forall name :: name in words ==> |words[name].labels| >= 1 && words[name].labels[0] == name
  }

  /** The draw state of every word label during one rendering. */
  type Session = map<string, Draws>

  ghost predicate SessionOk(words: map<string, WordLabel>, s: Session) {
    && s.Keys == words.Keys
    && forall name :: name in s ==> Partition(|words[name].words|, s[name])
  }

  /** Story.__init__: every word label of the word list is reset, whether the
      recipe uses it or not; each has all its options in the pool and no id. */
  function ResetAll(words: map<string, WordLabel>): (s: Session)
    ensures SessionOk(words, s)
    ensures forall name :: name in s ==> s[name].ids == map[] && |s[name].pool| == |words[name].words|
  {
    map name | name in words :: Reset(|words[name].words|)
  }

  /** What one recipe piece adds to the story: plain text, or the value of the
      word option at `position` in its label's list. */
  datatype Piece = Verbatim(text: string) | Drawn(text: string, position: nat)

  /** An entry of the recipe list a Story walks: a plain string, or the
      RecipeLabel object parsed from a placeholder. */
  datatype Section = Text(text: string) | Slot(tag: RecipeLabel)

  function Parsed(seg: Segment): Section {
    if seg.Plain? then Text(seg.text) else Slot(seg.Tag())
  }

  /** StoryRecipe.recipe as the source holds it: plain strings and parsed
      RecipeLabel objects, one per piece. */
  function Sections(segs: seq<Segment>): (secs: seq<Section>)
    ensures |secs| == |segs| && forall k :: 0 <= k < |segs| ==> secs[k] == Parsed(segs[k])
  {
    seq(|segs|, k requires 0 <= k < |segs| => Parsed(segs[k]))
  }

  // ---------------------------------------------------------------------------
  // Ids and picks

  /** The label and id of piece `k`, when it is a placeholder with an id. */
  function IdAt(secs: seq<Section>, k: nat): Option<(string, string)>
    requires k < |secs|
  {
    if secs[k].Slot? && secs[k].tag.id.Some?
    then Some((secs[k].tag.name, secs[k].tag.id.value))
    else None
  }

  /** The ids used with label `name` in the first `n` pieces. */
  function IdsBefore(secs: seq<Section>, n: nat, name: string): set<string>
    requires n <= |secs|
  {
    set j | 0 <= j < n && IdAt(secs, j).Some? && IdAt(secs, j).value.0 == name :: IdAt(secs, j).value.1
  }

  /** A random index fits a placeholder of label `w` when some ids of that label
      were `drawn` before it: below the number of options for an anonymous
      draw, below the number left in the pool for a new id. */
  predicate PickFits(w: WordLabel, drawn: set<string>, id: Option<string>, pick: nat) {
    match id
    case None => |w.words| == 0 || pick < |w.words|
    case Some(x) => x in drawn || |w.words| <= |drawn| || pick < |w.words| - |drawn|
  }

  /** One random index per piece, each within the range the source's random
      call draws from at that point. */
  predicate PicksFit(secs: seq<Section>, words: map<string, WordLabel>, picks: seq<nat>) {
    && |picks| == |secs|
    && forall k :: 0 <= k < |secs| && secs[k].Slot? && secs[k].tag.name in words ==>
         PickFits(words[secs[k].tag.name], IdsBefore(secs, k, secs[k].tag.name), secs[k].tag.id, picks[k])
  }

  // ---------------------------------------------------------------------------
  // What a rendering shows

  /** `piece` renders `seg`: plain text as it is; a placeholder as the value that
      some word option of its label holds for the placeholder's column. */
  predicate Shows(words: map<string, WordLabel>, sec: Section, piece: Piece) {
    if sec.Text? then piece == Verbatim(sec.text)
    else
      var tag := sec.tag;
      && tag.name in words
      && |words[tag.name].labels| >= 1
      && piece.Drawn?
      && piece.position < |words[tag.name].words|
      && Column(words[tag.name], tag.sublabel) in words[tag.name].words[piece.position]
      && piece.text == words[tag.name].words[piece.position][Column(words[tag.name], tag.sublabel)]
  }

  predicate ShowsUpTo(secs: seq<Section>, words: map<string, WordLabel>, pieces: seq<Piece>, n: nat) {
    && n <= |secs| && |pieces| == n
    && forall k :: 0 <= k < n ==> Shows(words, secs[k], pieces[k])
  }

  /** Two placeholders of the same label that both carry an id show the same
      word option exactly when their ids are equal. */
  predicate Consistent(secs: seq<Section>, pieces: seq<Piece>, n: nat)
    requires n <= |secs| && n <= |pieces|
  {
    forall i, j :: 0 <= i < n && 0 <= j < n && IdAt(secs, i).Some? && IdAt(secs, j).Some? &&
                   IdAt(secs, i).value.0 == IdAt(secs, j).value.0 && pieces[i].Drawn? && pieces[j].Drawn? ==>
      (pieces[i].position == pieces[j].position <==> IdAt(secs, i) == IdAt(secs, j))
  }

  /** An anonymous placeholder shows the option its random index names, pool
      or no pool. */
  predicate Anonymous(secs: seq<Section>, picks: seq<nat>, pieces: seq<Piece>, n: nat)
    requires n <= |secs| && n <= |picks| && n <= |pieces|
  {
    forall k :: 0 <= k < n && secs[k].Slot? && secs[k].tag.id.None? ==>
      pieces[k].Drawn? && pieces[k].position == picks[k]
  }

  /** A full rendering of `secs` with `picks`. */
  predicate Rendering(secs: seq<Section>, words: map<string, WordLabel>, picks: seq<nat>, pieces: seq<Piece>) {
    && |picks| == |secs|
    && ShowsUpTo(secs, words, pieces, |secs|)
    && Consistent(secs, pieces, |secs|)
    && Anonymous(secs, picks, pieces, |secs|)
  }

  /** Why piece `j` stops the rendering with error `e`: its label is not in the
      word list; an anonymous draw from an empty list; a new id after every
      option has been given to an id; or an option without the column read. */
  ghost predicate FailsAt(secs: seq<Section>, words: map<string, WordLabel>, j: nat, e: Error)
    requires j < |secs|
  {
    && secs[j].Slot?
    && var tag := secs[j].tag;
       match e
       case UnknownLabel(name) => name == tag.name && name !in words
       case EmptyWordList(name) => name == tag.name && name in words && tag.id.None? && |words[name].words| == 0
       case PoolExhausted(name) =>
         && name == tag.name && name in words && tag.id.Some?
         && tag.id.value !in IdsBefore(secs, j, name)
         && |IdsBefore(secs, j, name)| == |words[name].words|
       case MissingSublabel(name, column) =>
         && name == tag.name && name in words && |words[name].labels| >= 1
         && column == Column(words[name], tag.sublabel)
         && exists p :: 0 <= p < |words[name].words| && column !in words[name].words[p]
       case TooFewValues(_) => false
  }

  /** Piece `i` goes through without raising: its label is known; an
      anonymous draw has options and the option its index names has the
      column; a new id finds some option left in the pool; and some option of
      the label has the column. For a word list the reader built every option
      has the same columns, so an id draw then finds its column too. */
  ghost predicate Passes(secs: seq<Section>, words: map<string, WordLabel>, picks: seq<nat>, i: nat)
    requires i < |secs| && |picks| == |secs|
  {
    secs[i].Slot? ==>
      var tag := secs[i].tag;
      && tag.name in words
      && |words[tag.name].labels| >= 1
      && var w := words[tag.name];
         var column := Column(w, tag.sublabel);
         && (tag.id.None? ==> picks[i] < |w.words| && column in w.words[picks[i]])
         && (tag.id.Some? && tag.id.value !in IdsBefore(secs, i, tag.name) ==> |IdsBefore(secs, i, tag.name)| < |w.words|)
         && exists p :: 0 <= p < |w.words| && column in w.words[p]
  }

  /** Piece `j` fails with `e`, and every piece from `k` up to it went
      through: the error is the one the source raises first. */
  ghost predicate FirstFailure(secs: seq<Section>, words: map<string, WordLabel>, picks: seq<nat>, k: nat, j: nat, e: Error)
    requires j < |secs| && |picks| == |secs|
  {
    && k <= j
    && FailsAt(secs, words, j, e)
    && forall i :: k <= i < j ==> Passes(secs, words, picks, i)
  }

  // ---------------------------------------------------------------------------
  // Rendering

  /** What the session remembers after the first `n` pieces: each label's ids
      are exactly those used so far, and each one holds the option its pieces
      showed. */
  ghost predicate Remembers(secs: seq<Section>, words: map<string, WordLabel>, s: Session, pieces: seq<Piece>, n: nat) {
    && n <= |secs| && |pieces| == n
    && SessionOk(words, s)
    && IdsAre(secs, s, n)
    && Memory(secs, s, pieces, n)
  }

  /** Each label's remembered ids are exactly those used in the first `n` pieces. */
  ghost predicate IdsAre(secs: seq<Section>, s: Session, n: nat)
    requires n <= |secs|
  {
    forall name :: name in s ==> s[name].ids.Keys == IdsBefore(secs, n, name)
  }

  /** Each of the first `n` pieces with an id showed the option its id holds. */
  ghost predicate Memory(secs: seq<Section>, s: Session, pieces: seq<Piece>, n: nat)
    requires n <= |secs| && n <= |pieces|
  {
    forall j :: 0 <= j < n && IdAt(secs, j).Some? ==>
      var p := IdAt(secs, j).value;
      && p.0 in s && p.1 in s[p.0].ids
      && pieces[j].Drawn? && pieces[j].position == s[p.0].ids[p.1]
  }

  /** Story.generate from piece `k` on, with the session `s` and the pieces
      `acc` of the first `k` pieces; stops at the first expansion that fails. */
  function RenderFrom(secs: seq<Section>, words: map<string, WordLabel>, picks: seq<nat>,
                      k: nat, s: Session, acc: seq<Piece>): (r: Result<seq<Piece>>)
    requires Headed(words) && PicksFit(secs, words, picks) && k <= |secs|
    requires ShowsUpTo(secs, words, acc, k) && Remembers(secs, words, s, acc, k) && Anonymous(secs, picks, acc, k)
    ensures r.Ok? ==> Rendering(secs, words, picks, r.value)
    ensures r.Err? ==> exists j :: k <= j < |secs| && FirstFailure(secs, words, picks, k, j, r.error)
    decreases |secs| - k
  {
    if k == |secs| then
      MemoryConsistent(secs, words, s, acc, k);
      Ok(acc)
    else if secs[k].Text? then
      VerbatimStep(secs, words, picks, s, acc, k);
      assert Passes(secs, words, picks, k);
      var r := RenderFrom(secs, words, picks, k + 1, s, acc + [Verbatim(secs[k].text)]);
      FailureBack(secs, words, picks, k, k + 1, r);
      r
    else
      var tag := secs[k].tag;
      if tag.name !in words then
        assert FirstFailure(secs, words, picks, k, k, UnknownLabel(tag.name));
        Err(UnknownLabel(tag.name))
      else
        PickInRange(secs, words, picks, s, acc, k);
        match Expanded(words[tag.name], s[tag.name], tag.id, tag.sublabel, picks[k])
        case Err(e) =>
          DrawFails(secs, words, picks, s, acc, k, e);
          assert FirstFailure(secs, words, picks, k, k, e);
          Err(e)
        case Ok(x) =>
          DrawStep(secs, words, picks, s, acc, k, x);
          DrawPasses(secs, words, picks, s, acc, k, x);
          var r := RenderFrom(secs, words, picks, k + 1, s[tag.name := x.after], acc + [Drawn(x.text, x.position)]);
          FailureBack(secs, words, picks, k, k + 1, r);
          r
  }

  /** A piece that passed keeps the first failure after it the first one. */
  lemma {:induction false} FailureBack(secs: seq<Section>, words: map<string, WordLabel>, picks: seq<nat>, k: nat, next: nat, r: Result<seq<Piece>>)
    requires k < |secs| && |picks| == |secs| && next == k + 1 && Passes(secs, words, picks, k)
    requires r.Err? ==> exists j :: next <= j < |secs| && FirstFailure(secs, words, picks, next, j, r.error)
    ensures r.Err? ==> exists j :: k <= j < |secs| && FirstFailure(secs, words, picks, k, j, r.error)
  {
    if r.Err? {
      var j :| next <= j < |secs| && FirstFailure(secs, words, picks, next, j, r.error);
      assert FirstFailure(secs, words, picks, k, j, r.error);
    }
  }

  /** A draw that succeeded raised none of the errors fixed by the piece
      alone: its label is known, it had options to choose from, and a new id
      found the pool non-empty. */
  lemma {:induction false} DrawPasses(secs: seq<Section>, words: map<string, WordLabel>, picks: seq<nat>, s: Session, acc: seq<Piece>, k: nat, x: Expansion)
    requires k < |secs| && secs[k].Slot? && secs[k].tag.name in words && |picks| == |secs|
    requires Remembers(secs, words, s, acc, k)
    requires var tag := secs[k].tag;
      && tag.name in s && |words[tag.name].labels| >= 1 && Partition(|words[tag.name].words|, s[tag.name])
      && PickOk(words[tag.name], s[tag.name], tag.id, picks[k])
      && Expanded(words[tag.name], s[tag.name], tag.id, tag.sublabel, picks[k]) == Ok(x)
    ensures Passes(secs, words, picks, k)
  {
    var tag := secs[k].tag;
    var d := s[tag.name];
    var w := words[tag.name];
    assert d.ids.Keys == IdsBefore(secs, k, tag.name);
    assert |d.ids.Keys| == |d.ids|;
    assert x.position < |w.words| && Column(w, tag.sublabel) in w.words[x.position];
  }

  lemma {:induction false} MemoryConsistent(secs: seq<Section>, words: map<string, WordLabel>, s: Session, pieces: seq<Piece>, n: nat)
    requires Remembers(secs, words, s, pieces, n)
    ensures Consistent(secs, pieces, n)
  {
    forall i, j | 0 <= i < n && 0 <= j < n && IdAt(secs, i).Some? && IdAt(secs, j).Some? &&
                  IdAt(secs, i).value.0 == IdAt(secs, j).value.0 && pieces[i].Drawn? && pieces[j].Drawn?
      ensures pieces[i].position == pieces[j].position <==> IdAt(secs, i) == IdAt(secs, j)
    {
      var p, q := IdAt(secs, i).value, IdAt(secs, j).value;
      assert p.0 in s && p.1 in s[p.0].ids && pieces[i].position == s[p.0].ids[p.1];
      assert q.1 in s[p.0].ids && pieces[j].position == s[p.0].ids[q.1];
      assert Partition(|words[p.0].words|, s[p.0]);
    }
  }

  lemma {:induction false} VerbatimStep(secs: seq<Section>, words: map<string, WordLabel>, picks: seq<nat>, s: Session, acc: seq<Piece>, k: nat)
    requires k < |secs| && secs[k].Text? && |picks| == |secs|
    requires ShowsUpTo(secs, words, acc, k) && Remembers(secs, words, s, acc, k) && Anonymous(secs, picks, acc, k)
    ensures var acc' := acc + [Verbatim(secs[k].text)];
      ShowsUpTo(secs, words, acc', k + 1) && Remembers(secs, words, s, acc', k + 1) && Anonymous(secs, picks, acc', k + 1)
  {
    var acc' := acc + [Verbatim(secs[k].text)];
    assert IdAt(secs, k).None?;
    forall name ensures IdsBefore(secs, k + 1, name) == IdsBefore(secs, k, name) { }
    assert forall j :: 0 <= j < k ==> acc'[j] == acc[j];
  }

  lemma {:induction false} PickInRange(secs: seq<Section>, words: map<string, WordLabel>, picks: seq<nat>, s: Session, acc: seq<Piece>, k: nat)
    requires k < |secs| && secs[k].Slot? && secs[k].tag.name in words
    requires Headed(words) && PicksFit(secs, words, picks) && Remembers(secs, words, s, acc, k)
    ensures var tag := secs[k].tag;
      && tag.name in s && |words[tag.name].labels| >= 1 && Partition(|words[tag.name].words|, s[tag.name])
      && PickOk(words[tag.name], s[tag.name], tag.id, picks[k])
  {
    var tag := secs[k].tag;
    var d := s[tag.name];
    assert d.ids.Keys == IdsBefore(secs, k, tag.name);
    assert |d.ids.Keys| == |d.ids|;
  }

  lemma {:induction false} DrawFails(secs: seq<Section>, words: map<string, WordLabel>, picks: seq<nat>, s: Session, acc: seq<Piece>, k: nat, e: Error)
    requires k < |secs| && secs[k].Slot? && secs[k].tag.name in words
    requires Headed(words) && PicksFit(secs, words, picks) && Remembers(secs, words, s, acc, k)
    requires var tag := secs[k].tag;
      && tag.name in s && Partition(|words[tag.name].words|, s[tag.name])
      && PickOk(words[tag.name], s[tag.name], tag.id, picks[k])
      && Expanded(words[tag.name], s[tag.name], tag.id, tag.sublabel, picks[k]) == Err(e)
    ensures FailsAt(secs, words, k, e)
  {
    var tag := secs[k].tag;
    var d := s[tag.name];
    assert d.ids.Keys == IdsBefore(secs, k, tag.name);
    assert |d.ids.Keys| == |d.ids|;
  }

  lemma {:induction false} DrawStep(secs: seq<Section>, words: map<string, WordLabel>, picks: seq<nat>, s: Session, acc: seq<Piece>, k: nat, x: Expansion)
    requires k < |secs| && secs[k].Slot? && secs[k].tag.name in words
    requires Headed(words) && |picks| == |secs|
    requires ShowsUpTo(secs, words, acc, k) && Remembers(secs, words, s, acc, k) && Anonymous(secs, picks, acc, k)
    requires var tag := secs[k].tag;
      && tag.name in s && Partition(|words[tag.name].words|, s[tag.name])
      && PickOk(words[tag.name], s[tag.name], tag.id, picks[k])
      && Expanded(words[tag.name], s[tag.name], tag.id, tag.sublabel, picks[k]) == Ok(x)
    ensures var acc', s' := acc + [Drawn(x.text, x.position)], s[secs[k].tag.name := x.after];
      ShowsUpTo(secs, words, acc', k + 1) && Remembers(secs, words, s', acc', k + 1) && Anonymous(secs, picks, acc', k + 1)
  {
    var tag := secs[k].tag;
    var w, d := words[tag.name], s[tag.name];
    var piece := Drawn(x.text, x.position);
    ExpandedRemembers(w, d, tag.id, tag.sublabel, picks[k], x);
    assert Shows(words, secs[k], piece);
    ShowsStep(secs, words, acc, k, piece);
    AnonymousStep(secs, picks, acc, k, piece);
    assert IdAt(secs, k) == if tag.id.Some? then Some((tag.name, tag.id.value)) else None;
    RemembersStep(secs, words, s, acc, k, tag.name, x.after, piece);
  }

  lemma {:induction false} ShowsStep(secs: seq<Section>, words: map<string, WordLabel>, acc: seq<Piece>, k: nat, piece: Piece)
    requires k < |secs| && ShowsUpTo(secs, words, acc, k) && Shows(words, secs[k], piece)
    ensures ShowsUpTo(secs, words, acc + [piece], k + 1)
  {
    assert forall j :: 0 <= j < k ==> (acc + [piece])[j] == acc[j];
  }

  lemma {:induction false} AnonymousStep(secs: seq<Section>, picks: seq<nat>, acc: seq<Piece>, k: nat, piece: Piece)
    requires k < |secs| && |picks| == |secs| && |acc| == k && Anonymous(secs, picks, acc, k)
    requires secs[k].Slot? && secs[k].tag.id.None? ==> piece.Drawn? && piece.position == picks[k]
    ensures Anonymous(secs, picks, acc + [piece], k + 1)
  {
    assert forall j :: 0 <= j < k ==> (acc + [piece])[j] == acc[j];
  }

  /** The ids of label `name` in the first `k + 1` pieces: those of the first
      `k`, plus the id of piece `k` when it is a placeholder of that label. */
  lemma {:induction false} IdsStep(secs: seq<Section>, k: nat, name: string)
    requires k < |secs|
    ensures IdsBefore(secs, k + 1, name) ==
      IdsBefore(secs, k, name) + (if IdAt(secs, k).Some? && IdAt(secs, k).value.0 == name then {IdAt(secs, k).value.1} else {})
  {
  }

  lemma {:induction false} RemembersStep(secs: seq<Section>, words: map<string, WordLabel>, s: Session, acc: seq<Piece>, k: nat,
                      name: string, after: Draws, piece: Piece)
    requires k < |secs| && Remembers(secs, words, s, acc, k) && name in s
    requires Partition(|words[name].words|, after)
    requires IdAt(secs, k).Some? ==>
      && IdAt(secs, k).value.0 == name && IdAt(secs, k).value.1 in after.ids
      && piece.Drawn? && piece.position == after.ids[IdAt(secs, k).value.1]
    requires after.ids.Keys == s[name].ids.Keys + (if IdAt(secs, k).Some? then {IdAt(secs, k).value.1} else {})
    requires forall y :: y in s[name].ids ==> y in after.ids && after.ids[y] == s[name].ids[y]
    ensures Remembers(secs, words, s[name := after], acc + [piece], k + 1)
  {
    IdsAreStep(secs, s, k, name, after);
    MemoryStep(secs, s, acc, k, name, after, piece);
  }

  lemma {:induction false} IdsAreStep(secs: seq<Section>, s: Session, k: nat, name: string, after: Draws)
    requires k < |secs| && IdsAre(secs, s, k) && name in s
    requires IdAt(secs, k).Some? ==> IdAt(secs, k).value.0 == name
    requires after.ids.Keys == s[name].ids.Keys + (if IdAt(secs, k).Some? then {IdAt(secs, k).value.1} else {})
    ensures IdsAre(secs, s[name := after], k + 1)
  {
    var s' := s[name := after];
    forall l | l in s' ensures s'[l].ids.Keys == IdsBefore(secs, k + 1, l) {
      IdsStep(secs, k, l);
    }
  }

  lemma {:induction false} MemoryStep(secs: seq<Section>, s: Session, acc: seq<Piece>, k: nat,
                                      name: string, after: Draws, piece: Piece)
    requires k < |secs| && |acc| == k && Memory(secs, s, acc, k) && name in s
    requires IdAt(secs, k).Some? ==>
      && IdAt(secs, k).value.0 == name && IdAt(secs, k).value.1 in after.ids
      && piece.Drawn? && piece.position == after.ids[IdAt(secs, k).value.1]
    requires forall y :: y in s[name].ids ==> y in after.ids && after.ids[y] == s[name].ids[y]
    ensures Memory(secs, s[name := after], acc + [piece], k + 1)
  {
    var s', acc' := s[name := after], acc + [piece];
    forall j | 0 <= j < k + 1 && IdAt(secs, j).Some?
      ensures var p := IdAt(secs, j).value;
        && p.0 in s' && p.1 in s'[p.0].ids
        && acc'[j].Drawn? && acc'[j].position == s'[p.0].ids[p.1]
    {
      if j < k {
        assert acc'[j] == acc[j];
      }
    }
  }

  /** Story.generate on a freshly reset session: the pieces of the story, one
      per recipe piece. */
  function Render(secs: seq<Section>, words: map<string, WordLabel>, picks: seq<nat>): (r: Result<seq<Piece>>)
    requires Headed(words) && PicksFit(secs, words, picks)
    ensures r.Ok? ==> Rendering(secs, words, picks, r.value)
    ensures r.Err? ==> exists j :: 0 <= j < |secs| && FirstFailure(secs, words, picks, 0, j, r.error)
  {
    var s := ResetAll(words);
    forall name | name in s ensures s[name].ids.Keys == IdsBefore(secs, 0, name) { }
    RenderFrom(secs, words, picks, 0, s, [])
  }

  /** The text of a story: its pieces in order. */
  function Texts(pieces: seq<Piece>): string {
    if |pieces| == 0 then "" else pieces[0].text + Texts(pieces[1..])
  }

  /** Story(recipe, wordlist).generate(): the story text, built from a
      rendering of the recipe, or the first error. */
  function Generate(recipe: StoryRecipe, wl: WordList, picks: seq<nat>): (r: Result<string>)
    requires Headed(wl.words) && PicksFit(Sections(recipe.recipe), wl.words, picks)
    ensures r.Ok? ==> exists pieces :: Rendering(Sections(recipe.recipe), wl.words, picks, pieces) && r.value == Texts(pieces)
    ensures r.Err? ==> exists j :: 0 <= j < |recipe.recipe| && FirstFailure(Sections(recipe.recipe), wl.words, picks, 0, j, r.error)
  {
    match Render(Sections(recipe.recipe), wl.words, picks)
    case Ok(pieces) => Ok(Texts(pieces))
    case Err(e) => Err(e)
  }

  // ---------------------------------------------------------------------------
  // Properties

  /** With a word list the reader built, the first failure is determined: two
      pieces that both fail first from `k` on are the same piece, the one
      where the source raises. */
  lemma {:induction false} FirstFailureUnique(labels: map<string, seq<string>>, words: map<string, WordLabel>,
                                              secs: seq<Section>, picks: seq<nat>, k: nat, j: nat, e: Error, j': nat, e': Error)
    requires TableOk(labels, words) && |picks| == |secs| && j < |secs| && j' < |secs|
    requires FirstFailure(secs, words, picks, k, j, e) && FirstFailure(secs, words, picks, k, j', e')
    ensures j == j'
  {
    if j < j' {
      FailsNotPasses(labels, words, secs, picks, j, e);
    } else if j' < j {
      FailsNotPasses(labels, words, secs, picks, j', e');
    }
  }

  /** In a word list the reader built, a piece that fails does not go through:
      a missing column in one option means it is missing in all of them. */
  lemma FailsNotPasses(labels: map<string, seq<string>>, words: map<string, WordLabel>,
                       secs: seq<Section>, picks: seq<nat>, i: nat, e: Error)
    requires TableOk(labels, words) && |picks| == |secs| && i < |secs|
    requires FailsAt(secs, words, i, e)
    ensures !Passes(secs, words, picks, i)
  {
  }

  /** A word list as the reader builds it is headed. */
  lemma {:induction false} TableHeaded(wl: WordList)
    requires TableOk(wl.labels, wl.words)
    ensures Headed(wl.words)
  {
  }

  /** With a word list the reader built and found compatible with the recipe,
      and no placeholder with an empty sublabel, a story fails only for running
      out of options: an anonymous draw from an empty list, or a new id after
      all options are taken. Unknown labels and missing columns cannot occur. */
  lemma {:induction false} CompatibleOnlyRunsOut(recipe: StoryRecipe, wl: WordList, picks: seq<nat>)
    requires TableOk(wl.labels, wl.words) && LabelsOf(recipe.recipe, recipe.labels) && Compatible(recipe.labels, wl)
    requires forall k :: 0 <= k < |recipe.recipe| && recipe.recipe[k].Placeholder? ==> recipe.recipe[k].Tag().sublabel != Some("")
    requires PicksFit(Sections(recipe.recipe), wl.words, picks)
    ensures Headed(wl.words)
    ensures var r := Generate(recipe, wl, picks); r.Err? ==> r.error.EmptyWordList? || r.error.PoolExhausted?
  {
    TableHeaded(wl);
    var secs := Sections(recipe.recipe);
    var r := Generate(recipe, wl, picks);
    if r.Err? {
      var j :| 0 <= j < |recipe.recipe| && FirstFailure(secs, wl.words, picks, 0, j, r.error);
      NoFailureOfCompatible(recipe, wl, j, r.error);
    }
  }

  lemma {:induction false} NoFailureOfCompatible(recipe: StoryRecipe, wl: WordList, j: nat, e: Error)
    requires TableOk(wl.labels, wl.words) && LabelsOf(recipe.recipe, recipe.labels) && Compatible(recipe.labels, wl)
    requires forall k :: 0 <= k < |recipe.recipe| && recipe.recipe[k].Placeholder? ==> recipe.recipe[k].Tag().sublabel != Some("")
    requires j < |recipe.recipe| && FailsAt(Sections(recipe.recipe), wl.words, j, e)
    ensures e.EmptyWordList? || e.PoolExhausted?
  {
    var segs := recipe.recipe;
    assert Sections(segs)[j] == Parsed(segs[j]);
    var tag := segs[j].Tag();
    assert Sections(segs)[j] == Slot(tag);
    assert Uses(segs, tag.name);
    assert tag.name in recipe.labels;
    assert tag.name in wl.words;
    if e.MissingSublabel? {
      var w := wl.words[tag.name];
      var p :| 0 <= p < |w.words| && e.sublabel !in w.words[p];
      var header := set i | 0 <= i < |w.labels| :: w.labels[i];
      assert w.words[p].Keys == header;
      if tag.sublabel.Some? {
        var sub := tag.sublabel.value;
        assert UsesSublabel(segs, tag.name, sub);
      }
    }
  }

  /** A recipe body without '{' is a single plain piece, and every story of it
      is the body itself, whatever the word list. */
  lemma {:induction false} PlainStory(titleLine: string, body: string, wl: WordList, picks: seq<nat>)
    requires '{' !in Strip(body) && Headed(wl.words) && |picks| == 1
    ensures BracesClosed(Strip(body))
    ensures var r := ParseStoryRecipe(titleLine, body);
      && r.recipe == [Plain(Strip(body))]
      && PicksFit(Sections(r.recipe), wl.words, picks)
      && Generate(r, wl, picks) == Ok(Strip(body))
  {
    var t := Strip(body);
    PlainSplit(t);
    var r := ParseStoryRecipe(titleLine, body);
    assert r.recipe == [Plain(t)];
    PlainRendering(r, wl, picks);
  }

  lemma {:induction false} PlainSplit(t: string)
    requires '{' !in t
    ensures BracesClosed(t) && SplitRecipe(t) == [Plain(t)]
  {
    var segs := [Plain(t)];
    assert Unsplit(segs) == t;
    SplitUnsplit(segs);
  }

  lemma {:induction false} PlainRendering(r: StoryRecipe, wl: WordList, picks: seq<nat>)
    requires |r.recipe| == 1 && r.recipe[0].Plain? && Headed(wl.words) && |picks| == 1
    ensures PicksFit(Sections(r.recipe), wl.words, picks)
    ensures Generate(r, wl, picks) == Ok(r.recipe[0].text)
  {
    var secs := Sections(r.recipe);
    assert secs[0] == Text(r.recipe[0].text);
    var g := Generate(r, wl, picks);
    forall e: Error ensures !FailsAt(secs, wl.words, 0, e) { }
    assert g.Ok?;
    var pieces: seq<Piece> :| Rendering(secs, wl.words, picks, pieces) && g.value == Texts(pieces);
    assert Shows(wl.words, secs[0], pieces[0]);
    assert pieces == [Verbatim(r.recipe[0].text)];
    assert Texts(pieces) == pieces[0].text + Texts(pieces[1..]);
    assert pieces[1..] == [];
    assert Texts(pieces) == r.recipe[0].text;
  }
}

=== FILE: strings.dfy ===
/** The few Python string operations the engine relies on: `str.strip()`,
    `str.find(c, start)` and `str.split(c)`, over `string` (a `seq<char>`). */
module Strings {

  /** The characters Python 3's `str.isspace()` accepts, by code point. */
  predicate IsSpace(c: char) {
    var n := c as int;
    || (9 <= n <= 13) || (28 <= n <= 32) || n == 0x85 || n == 0xA0 || n == 0x1680
    || (0x2000 <= n <= 0x200A) || n == 0x2028 || n == 0x2029 || n == 0x202F
    || n == 0x205F || n == 0x3000
  }

  predicate AllSpace(s: string) {
    forall i :: 0 <= i < |s| ==> IsSpace(s[i])
  }

  /** Drops leading whitespace. */
  function TrimStart(s: string): string {
    if |s| > 0 && IsSpace(s[0]) then TrimStart(s[1..]) else s
  }

  /** Drops trailing whitespace. */
  function TrimEnd(s: string): string {
    if |s| > 0 && IsSpace(s[|s| - 1]) then TrimEnd(s[..|s| - 1]) else s
  }

  /** TrimStart removes a whitespace prefix, up to the first other character. */
  lemma {:induction false} TrimStartSpec(s: string)
    ensures var r := TrimStart(s);
      && |r| <= |s| && r == s[|s| - |r|..]
      && AllSpace(s[..|s| - |r|])
      && (r == [] || !IsSpace(r[0]))
  {
    if |s| > 0 && IsSpace(s[0]) {
      TrimStartSpec(s[1..]);
      var r := TrimStart(s[1..]);
      assert s[..|s| - |r|] == [s[0]] + s[1..][..|s| - 1 - |r|];
    }
  }

  /** TrimEnd removes a whitespace suffix, back to the last other character. */
  lemma {:induction false} TrimEndSpec(s: string)
    ensures var r := TrimEnd(s);
      && |r| <= |s| && r == s[..|r|]
      && AllSpace(s[|r|..])
      && (r == [] || !IsSpace(r[|r| - 1]))
  {
    if |s| > 0 && IsSpace(s[|s| - 1]) {
      TrimEndSpec(s[..|s| - 1]);
      var r := TrimEnd(s[..|s| - 1]);
      assert s[|r|..] == s[..|s| - 1][|r|..] + [s[|s| - 1]];
    }
  }

  /** Python's `s.strip()`. */
  function Strip(s: string): string {
    TrimEnd(TrimStart(s))
  }

  /** What `Strip` keeps: the infix of `s` left after removing whitespace
      from both ends. */
  lemma {:induction false} StripInfix(s: string)
    ensures var r := Strip(s);
      exists i :: 0 <= i <= |s| - |r| && r == s[i..i + |r|] && AllSpace(s[..i]) && AllSpace(s[i + |r|..])
  {
    var t := TrimStart(s);
    var r := TrimEnd(t);
    TrimStartSpec(s);
    TrimEndSpec(t);
    var i := |s| - |t|;
    StripShape(s, t, r, i);
    assert r == s[i..i + |r|] && AllSpace(s[..i]) && AllSpace(s[i + |r|..]);
  }

  /** `Strip` leaves no whitespace at either end. */
  lemma {:induction false} StripEnds(s: string)
    ensures var r := Strip(s); r == [] || (!IsSpace(r[0]) && !IsSpace(r[|r| - 1]))
  {
    var t := TrimStart(s);
    var r := TrimEnd(t);
    TrimStartSpec(s);
    TrimEndSpec(t);
    if r != [] { assert r[0] == t[0]; }
  }

  /** `Strip` gives the empty string exactly for an all-whitespace string. */
  lemma {:induction false} StripBlank(s: string)
    ensures Strip(s) == [] <==> AllSpace(s)
  {
    var t := TrimStart(s);
    var r := TrimEnd(t);
    TrimStartSpec(s);
    TrimEndSpec(t);
    StripEmpty(s, t, r, |s| - |t|);
  }

  lemma {:induction false} StripShape(s: string, t: string, r: string, i: nat)
    requires i <= |s| && t == s[i..]
    requires |r| <= |t| && r == t[..|r|] && AllSpace(t[|r|..])
    ensures i + |r| <= |s| && r == s[i..i + |r|] && AllSpace(s[i + |r|..])
  {
    assert s[i + |r|..] == t[|r|..];
  }

  lemma {:induction false} StripEmpty(s: string, t: string, r: string, i: nat)
    requires i <= |s| && t == s[i..] && AllSpace(s[..i])
    requires |r| <= |t| && r == t[..|r|] && AllSpace(t[|r|..])
    requires r == [] || !IsSpace(r[|r| - 1])
    ensures r == [] <==> AllSpace(s)
  {
    if r == [] {
      assert t[|r|..] == t;
      AllSpaceConcat(s[..i], t);
      assert s == s[..i] + t;
    } else {
      assert s[i + |r| - 1] == r[|r| - 1];
    }
  }

  lemma {:induction false} AllSpaceConcat(a: string, b: string)
    requires AllSpace(a) && AllSpace(b)
    ensures AllSpace(a + b)
  {
    forall k | 0 <= k < |a + b| ensures IsSpace((a + b)[k]) {
      if k < |a| { assert (a + b)[k] == a[k]; } else { assert (a + b)[k] == b[k - |a|]; }
    }
  }

  /** Python's `s.find(c, start)`: the first position at or after `start` holding
      `c`, or -1 when there is none. */
  function Find(s: string, c: char, start: nat): (r: int)
    requires start <= |s|
    ensures r == -1 <==> c !in s[start..]
    ensures r != -1 ==> start <= r < |s| && s[r] == c && c !in s[start..r]
    decreases |s| - start
  {
    if start == |s| then -1
    else if s[start] == c then start
    else
      var r := Find(s, c, start + 1);
      assert s[start..] == [s[start]] + s[start + 1..];
      assert r != -1 ==> s[start..r] == [s[start]] + s[start + 1..r];
      r
  }

  /** Python's `sep.join(parts)` for a one-character separator. */
  function Join(parts: seq<string>, sep: char): string
    requires |parts| >= 1
  {
    if |parts| == 1 then parts[0] else parts[0] + [sep] + Join(parts[1..], sep)
  }

  predicate NoSeparator(parts: seq<string>, sep: char) {
    forall i :: 0 <= i < |parts| ==> sep !in parts[i]
  }

  /** Python's `s.split(sep)`: the pieces between separators, never an empty list. */
  function Split(s: string, sep: char): (parts: seq<string>)
    ensures |parts| >= 1 && |parts[0]| <= |s|
  {
    if |s| == 0 then [""]
    else
      var rest := Split(s[1..], sep);
      if s[0] == sep then [""] + rest
      else [[s[0]] + rest[0]] + rest[1..]
  }

  /** Joining the pieces with the separator gives the string back, and no piece
      contains the separator. */
  lemma {:induction false} JoinSplit(s: string, sep: char)
    ensures NoSeparator(Split(s, sep), sep)
    ensures Join(Split(s, sep), sep) == s
    decreases |s|
  {
    if |s| > 0 {
      var rest := Split(s[1..], sep);
      JoinSplit(s[1..], sep);
      var parts := Split(s, sep);
      if s[0] == sep {
        assert parts == [""] + rest;
        assert parts[1..] == rest;
        assert s == [sep] + s[1..];
      } else {
        assert parts == [[s[0]] + rest[0]] + rest[1..];
        assert parts[1..] == rest[1..];
        assert s == [s[0]] + s[1..];
        assert sep !in rest[0];
        forall i | 0 <= i < |parts| ensures sep !in parts[i] {
          if i > 0 { assert parts[i] == rest[i]; }
        }
      }
    }
  }

  /** The inverse direction: splitting a join of separator-free pieces gives the
      pieces back, so `Split` is the only decomposition with its contract. */
  lemma {:induction false} SplitJoin(parts: seq<string>, sep: char)
    requires |parts| >= 1 && NoSeparator(parts, sep)
    ensures Split(Join(parts, sep), sep) == parts
    decreases |parts|, |parts[0]|
  {
    var s := Join(parts, sep);
    if |parts[0]| == 0 {
      if |parts| == 1 {
      } else {
        assert s == [sep] + Join(parts[1..], sep);
        assert s[1..] == Join(parts[1..], sep);
        SplitJoin(parts[1..], sep);
        assert parts == [""] + parts[1..];
      }
    } else {
      var c := parts[0][0];
      assert c != sep by { assert c == parts[0][0]; }
      JoinSplit(s, sep);
      var tail := [parts[0][1..]] + parts[1..];
      assert NoSeparator(tail, sep) by {
        forall i | 0 <= i < |tail| ensures sep !in tail[i] {
          if i == 0 {
            assert sep !in parts[0];
            assert forall x :: x in parts[0][1..] ==> x in parts[0];
          } else {
            assert tail[i] == parts[i];
          }
        }
      }
      assert tail[1..] == parts[1..];
      assert Join(tail, sep) == s[1..] by {
        if |parts| == 1 {
        } else {
          assert s == parts[0] + [sep] + Join(parts[1..], sep);
          assert parts[0] == [c] + parts[0][1..];
        }
      }
      assert s[0] == c;
      SplitJoin(tail, sep);
      assert |s| > 0 && s[1..] == Join(tail, sep);
      assert Split(s, sep) == [[s[0]] + Split(s[1..], sep)[0]] + Split(s[1..], sep)[1..];
      assert parts[0] == [c] + parts[0][1..];
      assert [[c] + tail[0]] + tail[1..] == parts;
    }
  }

  /** What the first piece of a split is: the text before the first separator,
      followed either by the end of the string or by the separator and the
      split of the remainder. */
  lemma {:induction false} SplitHead(s: string, sep: char)
    ensures var parts := Split(s, sep);
      && s[..|parts[0]|] == parts[0]
      && (|parts| == 1 <==> |parts[0]| == |s|)
      && (|parts| > 1 ==> s[|parts[0]|] == sep && Split(s[|parts[0]| + 1..], sep) == parts[1..])
  {
    var parts := Split(s, sep);
    JoinSplit(s, sep);
    if |parts| > 1 {
      assert s == parts[0] + [sep] + Join(parts[1..], sep);
      assert s[|parts[0]| + 1..] == Join(parts[1..], sep);
      assert NoSeparator(parts[1..], sep) by {
        forall i | 0 <= i < |parts| - 1 ensures sep !in parts[1..][i] {
          assert parts[1..][i] == parts[i + 1];
        }
      }
      SplitJoin(parts[1..], sep);
    }
  }

  /** `f` occurs in `s` at position `at`, contains none of `stops`, and is
      followed by the end of `s` or by one of `stops`. */
  predicate FieldAt(s: string, at: nat, f: string, stops: set<char>) {
    && at + |f| <= |s|
    && s[at..at + |f|] == f
    && (forall k :: 0 <= k < |f| ==> f[k] !in stops)
    && (at + |f| == |s| || s[at + |f|] in stops)
  }

  /** The first piece of a split is the field at position 0 ended by the separator. */
  lemma {:induction false} HeadField(s: string, sep: char)
    ensures FieldAt(s, 0, Split(s, sep)[0], {sep})
    ensures |Split(s, sep)| > 1 <==> |Split(s, sep)[0]| < |s|
  {
    SplitHead(s, sep);
    JoinSplit(s, sep);
    var f := Split(s, sep)[0];
    assert sep !in f;
  }

  /** Conversely, a field at position 0 ended by the separator is the first piece. */
  lemma {:induction false} HeadUnique(s: string, sep: char, f: string)
    requires FieldAt(s, 0, f, {sep})
    ensures Split(s, sep)[0] == f
  {
    HeadField(s, sep);
    var g := Split(s, sep)[0];
    assert f == s[..|f|] && g == s[..|g|];
  }

  /** A field of `s[at..]` at position 0 is a field of `s` at position `at`. */
  lemma {:induction false} FieldShift(s: string, at: nat, f: string, stops: set<char>)
    requires at <= |s| && FieldAt(s[at..], 0, f, stops)
    ensures FieldAt(s, at, f, stops)
  {
    assert s[at..][0..|f|] == s[at..at + |f|];
  }

  /** Splitting on `a` and then splitting the first piece on `b`: the result's
      first piece is the field at 0 ended by either separator, and when a `b`
      ends it, the second piece is found the same way after that `b`. */
  lemma {:induction false} NestedHead(s: string, a: char, b: char)
    requires a != b
    ensures var p := Split(s, a)[0]; var q := Split(p, b);
      && FieldAt(s, 0, q[0], {a, b})
      && (|q| > 1 <==> |q[0]| < |s| && s[|q[0]|] == b)
      && (|q| > 1 ==> q[1] == Split(Split(s[|q[0]| + 1..], a)[0], b)[0])
  {
    var p := Split(s, a)[0];
    var q := Split(p, b);
    NestedField(s, a, b, p, q);
    if |q| > 1 {
      NestedSecond(s, a, b, p, q);
    }
  }

  lemma {:induction false} NestedField(s: string, a: char, b: char, p: string, q: seq<string>)
    requires a != b && p == Split(s, a)[0] && q == Split(p, b)
    ensures FieldAt(s, 0, q[0], {a, b})
    ensures |q| > 1 <==> |q[0]| < |s| && s[|q[0]|] == b
  {
    HeadField(s, a);
    HeadField(p, b);
    var f := q[0];
    assert p == s[..|p|];
    assert s[..|f|] == f by { assert p[..|f|] == f; }
    assert forall k :: 0 <= k < |f| ==> f[k] != a by {
      forall k | 0 <= k < |f| ensures f[k] != a { assert f[k] == p[k]; }
    }
    if |f| < |p| {
      assert s[|f|] == p[|f|];
    }
  }

  lemma {:induction false} NestedSecond(s: string, a: char, b: char, p: string, q: seq<string>)
    requires a != b && p == Split(s, a)[0] && q == Split(p, b) && |q| > 1
    ensures |q[0]| < |s|
    ensures q[1] == Split(Split(s[|q[0]| + 1..], a)[0], b)[0]
  {
    HeadField(s, a);
    SplitHead(p, b);
    var n := |q[0]| + 1;
    FieldSuffix(s, p, a, n);
    HeadUnique(s[n..], a, p[n..]);
  }

  /** Dropping the same prefix from a string and from its leading field leaves
      a leading field of the rest. */
  lemma {:induction false} FieldSuffix(s: string, p: string, a: char, n: nat)
    requires FieldAt(s, 0, p, {a}) && n <= |p|
    ensures FieldAt(s[n..], 0, p[n..], {a})
  {
    var t := s[n..];
    var rest := p[n..];
    assert t[..|rest|] == rest;
    forall k | 0 <= k < |rest| ensures rest[k] !in {a} { assert rest[k] == p[n + k]; }
    if |p| < |s| {
      assert t[|rest|] == s[|p|];
    }
  }

  /** The first occurrence at or after `start` is what `Find` returns. */
  lemma {:induction false} FindFirst(s: string, c: char, start: nat, k: nat)
    requires start <= k < |s| && s[k] == c && c !in s[start..k]
    ensures Find(s, c, start) == k
  {
    assert c in s[start..] by { assert s[start..][k - start] == c; }
  }
}

=== FILE: worddraws.dfy ===
/** The per-story state of a WordLabel and the draw that expands one
    placeholder (story_circus.py, WordLabel.reset and WordLabel.expanded). The
    random index the source draws is a parameter here. */
module WordDraws {
  import opened Outcomes
  import opened WordLists

  /** The source's `pool` and `ids`, with word options named by their position
      in `words`: `pool` lists the positions not yet given to an id, in pool
      order, and `ids` maps every id drawn so far to its option's position. */
  datatype Draws = Draws(pool: seq<nat>, ids: map<string, nat>)

  /** Every one of the `n` word options is either still in the pool, once, or
      held by exactly one id; so `|pool| + |ids| == n`, and two different ids
      never hold the same option. */
  ghost predicate Partition(n: nat, d: Draws) {
    && (forall i :: 0 <= i < |d.pool| ==> d.pool[i] < n)
    && (forall i, j :: 0 <= i < j < |d.pool| ==> d.pool[i] != d.pool[j])
    && (forall id :: id in d.ids ==> d.ids[id] < n && d.ids[id] !in d.pool)
    && (forall id, id' :: id in d.ids && id' in d.ids && id != id' ==> d.ids[id] != d.ids[id'])
    && (forall x :: 0 <= x < n ==> x in d.pool || x in d.ids.Values)
    && |d.pool| + |d.ids| == n
  }

  /** WordLabel.reset for a label with `n` word options: the pool is a copy of
      all of them, in order, and no id is remembered. */
  function Reset(n: nat): (d: Draws)
    ensures Partition(n, d)
    ensures d.ids == map[]
    ensures |d.pool| == n && forall i :: 0 <= i < n ==> d.pool[i] == i
  {
    var d := Draws(seq(n, i => i), map[]);
    forall x | 0 <= x < n ensures x in d.pool {
      assert d.pool[x] == x;
    }
    d
  }

  /** The header part a placeholder reads: its sublabel, or the label's main
      part (`labels[0]`, the label name) when it has none. */
  function Column(w: WordLabel, sublabel: Option<string>): string
    requires |w.labels| >= 1
  {
    if sublabel.None? then w.labels[0] else sublabel.value
  }

  /** The random index a draw consumes is in range whenever the source's
      `random` call can succeed: below `|words|` for an anonymous draw, below
      `|pool|` for an id not drawn yet. */
  predicate PickOk(w: WordLabel, d: Draws, id: Option<string>, pick: nat) {
    match id
    case None => |w.words| == 0 || pick < |w.words|
    case Some(k) => k in d.ids || |d.pool| == 0 || pick < |d.pool|
  }

  /** The result of a draw: the text, the position of the word option it came
      from, and the state after the draw. */
  datatype Expansion = Expansion(text: string, position: nat, after: Draws)

  /** Removes the entry at index `i`: Python's `list.pop(i)`. */
  function Without(s: seq<nat>, i: nat): seq<nat>
    requires i < |s|
  {
    s[..i] + s[i + 1..]
  }

  /** WordLabel.expanded. An anonymous draw takes option `pick` of all the
      options and changes nothing. A remembered id gives back its option and
      changes nothing. A new id takes entry `pick` of the pool, removes it from
      the pool and remembers it; with an empty pool it fails. Then the option's
      value for the column is returned; a missing column fails. */
  function Expanded(w: WordLabel, d: Draws, id: Option<string>, sublabel: Option<string>, pick: nat): (r: Result<Expansion>)
    requires |w.labels| >= 1 && Partition(|w.words|, d) && PickOk(w, d, id, pick)
    ensures r.Ok? ==> Partition(|w.words|, r.value.after)
    ensures r.Ok? ==>
      && r.value.position < |w.words|
      && Column(w, sublabel) in w.words[r.value.position]
      && r.value.text == w.words[r.value.position][Column(w, sublabel)]
    ensures id.None? ==> (r.Ok? <==> |w.words| > 0 && Column(w, sublabel) in w.words[pick])
    ensures id.None? && r.Ok? ==> r.value.position == pick && r.value.after == d
    ensures id.Some? && id.value in d.ids ==> (r.Ok? <==> Column(w, sublabel) in w.words[d.ids[id.value]])
    ensures id.Some? && id.value in d.ids && r.Ok? ==> r.value.position == d.ids[id.value] && r.value.after == d
    ensures id.Some? && id.value !in d.ids && |d.pool| == 0 ==> r == Err(PoolExhausted(w.labels[0]))
    ensures id.Some? && id.value !in d.ids && |d.pool| > 0 ==> (r.Ok? <==> Column(w, sublabel) in w.words[d.pool[pick]])
    ensures id.Some? && id.value !in d.ids && r.Ok? ==>
      && r.value.position == d.pool[pick]
      && r.value.after == Draws(Without(d.pool, pick), d.ids[id.value := d.pool[pick]])
    ensures r.Err? ==>
      r.error in {EmptyWordList(w.labels[0]), PoolExhausted(w.labels[0]), MissingSublabel(w.labels[0], Column(w, sublabel))}
    ensures r.Err? && r.error.EmptyWordList? ==> id.None? && |w.words| == 0
    ensures r.Err? && r.error.PoolExhausted? ==> id.Some? && id.value !in d.ids && |d.pool| == 0
    ensures r.Err? && r.error.MissingSublabel? ==>
      exists p :: 0 <= p < |w.words| && Column(w, sublabel) !in w.words[p]
  {
    var column := Column(w, sublabel);
    if id.None? then
      if |w.words| == 0 then Err(EmptyWordList(w.labels[0]))
      else if column !in w.words[pick] then Err(MissingSublabel(w.labels[0], column))
      else Ok(Expansion(w.words[pick][column], pick, d))
    else
      var key := id.value;
      if key in d.ids then
        var position := d.ids[key];
        if column !in w.words[position] then Err(MissingSublabel(w.labels[0], column))
        else Ok(Expansion(w.words[position][column], position, d))
      else if |d.pool| == 0 then Err(PoolExhausted(w.labels[0]))
      else
        var position := d.pool[pick];
        var after := Draws(Without(d.pool, pick), d.ids[key := position]);
        TakeKeepsPartition(|w.words|, d, key, pick);
        if column !in w.words[position] then Err(MissingSublabel(w.labels[0], column))
        else Ok(Expansion(w.words[position][column], position, after))
  }

  /** Moving pool entry `pick` to a new id keeps the partition. */
  lemma {:induction false} TakeKeepsPartition(n: nat, d: Draws, key: string, pick: nat)
    requires Partition(n, d) && key !in d.ids && pick < |d.pool|
    ensures Partition(n, Draws(Without(d.pool, pick), d.ids[key := d.pool[pick]]))
  {
    var p := d.pool[pick];
    var pool := Without(d.pool, pick);
    var ids := d.ids[key := p];
    WithoutMembers(d.pool, pick);
    forall x | 0 <= x < n ensures x in pool || x in ids.Values {
      if x == p {
        assert ids[key] == p;
      } else if x !in d.pool {
        var id :| id in d.ids && d.ids[id] == x;
        assert ids[id] == x;
      }
    }
    forall id | id in ids ensures ids[id] < n && ids[id] !in pool {
      if id != key {
        assert ids[id] == d.ids[id];
      }
    }
    assert |ids| == |d.ids| + 1;
  }

  /** Removing the entry at `i` from a repeat-free sequence keeps it repeat-free
      and removes exactly the value that was there. */
  lemma {:induction false} WithoutMembers(s: seq<nat>, i: nat)
    requires i < |s| && forall a, b :: 0 <= a < b < |s| ==> s[a] != s[b]
    ensures var t := Without(s, i);
      && |t| == |s| - 1
      && (forall a, b :: 0 <= a < b < |t| ==> t[a] != t[b])
      && (forall x :: x in t <==> x in s && x != s[i])
  {
    var t := Without(s, i);
    assert forall k :: 0 <= k < |t| ==> t[k] == s[if k < i then k else k + 1];
    forall x | x in s && x != s[i] ensures x in t {
      var k :| 0 <= k < |s| && s[k] == x;
      if k < i { assert t[k] == x; } else { assert t[k - 1] == x; }
    }
  }

  /** After a successful draw the label remembers every id it remembered
      before, with the same option, plus the id just drawn, holding the option
      shown; an anonymous draw remembers nothing new. */
  lemma {:induction false} ExpandedRemembers(w: WordLabel, d: Draws, id: Option<string>, sublabel: Option<string>, pick: nat, x: Expansion)
    requires |w.labels| >= 1 && Partition(|w.words|, d) && PickOk(w, d, id, pick)
    requires Expanded(w, d, id, sublabel, pick) == Ok(x)
    ensures x.after.ids.Keys == d.ids.Keys + (if id.Some? then {id.value} else {})
    ensures forall y :: y in d.ids ==> y in x.after.ids && x.after.ids[y] == d.ids[y]
    ensures id.Some? ==> id.value in x.after.ids && x.after.ids[id.value] == x.position
    ensures id.None? ==> x.position == pick
  {
  }
}

=== FILE: wordlists.dfy ===
/** Word lists: a title line followed by blocks of lines, each block a label
    header `label[/sublabel...]` and one word option per line
    (story_circus.py, class WordList and WordLabel.addWordOption). */
module WordLists {
  import opened Outcomes
  import opened Strings

  /** One word option: header part -> value. */
  type Record = map<string, string>

  /** WordLabel without its per-story draw state (kept in module WordDraws):
      `labels` is the whole header split on '/', so `labels[0]` is the label
      name itself; `words` are the word options in file order. */
  datatype WordLabel = WordLabel(labels: seq<string>, words: seq<Record>)

  /** A parsed word list: `labels` maps each label to its sublabels (the header
      without its first part) and `words` maps it to its WordLabel. */
  datatype WordList = WordList(name: string, labels: map<string, seq<string>>, words: map<string, WordLabel>)

  // ---------------------------------------------------------------------------
  // One word option

  /** No later position among the first `n` repeats `header[i]`. */
  predicate LastAt(header: seq<string>, n: nat, i: nat)
    requires i < n <= |header|
  {
    forall j :: i < j < n ==> header[j] != header[i]
  }

  /** The loop of addWordOption after `n` rounds: `options[header[i]] = values[i]`
      for i < n, later assignments overwriting earlier ones. */
  function Fill(header: seq<string>, values: seq<string>, n: nat): Record
    requires n <= |header| && n <= |values|
  {
    if n == 0 then map[] else Fill(header, values, n - 1)[header[n - 1] := values[n - 1]]
  }

  /** After `n` rounds the keys are the first `n` header parts, and each holds
      the value of the last round that assigned it. */
  lemma {:induction false} FillSpec(header: seq<string>, values: seq<string>, n: nat)
    requires n <= |header| && n <= |values|
    ensures Fill(header, values, n).Keys == set i | 0 <= i < n :: header[i]
    ensures forall i :: 0 <= i < n && LastAt(header, n, i) ==> Fill(header, values, n)[header[i]] == values[i]
  {
    if n > 0 {
      FillSpec(header, values, n - 1);
      assert forall i :: 0 <= i < n - 1 && LastAt(header, n, i) ==> LastAt(header, n - 1, i);
    }
  }

  /** The record a header and a value list describe: every header part is a
      key, and each key holds the value at the last position its part occurs. */
  ghost predicate RecordFor(header: seq<string>, values: seq<string>, r: Record)
    requires |header| <= |values|
  {
    && r.Keys == (set i | 0 <= i < |header| :: header[i])
    && forall i :: 0 <= i < |header| && LastAt(header, |header|, i) ==> r[header[i]] == values[i]
  }

  /** WordLabel.addWordOption's record: split the line on '/' and pair the
      parts with the header positionally. Header part 0, the label name, is a
      key too. A line with fewer parts than the header fails; extra parts are
      ignored. */
  function MakeRecord(header: seq<string>, line: string): (r: Result<Record>)
    ensures r.Ok? <==> |header| <= |Split(line, '/')|
    ensures r.Err? ==> r.error == TooFewValues(line)
  {
    var values := Split(line, '/');
    if |values| < |header| then Err(TooFewValues(line))
    else Ok(Fill(header, values, |header|))
  }

  /** The record pairs header parts with the line's '/'-parts: every header
      part is a key (part 0, the label name, included) and holds the value at
      the last position where that part occurs. */
  lemma {:induction false} MakeRecordSpec(header: seq<string>, line: string)
    requires MakeRecord(header, line).Ok?
    ensures RecordFor(header, Split(line, '/'), MakeRecord(header, line).value)
    ensures |header| > 0 ==> header[0] in MakeRecord(header, line).value
  {
    FillSpec(header, Split(line, '/'), |header|);
  }

  /** WordLabel.addWordOption: append the line's record to the word options. */
  function AddWordOption(w: WordLabel, line: string): (r: Result<WordLabel>)
    ensures r.Ok? <==> |w.labels| <= |Split(line, '/')|
    ensures r.Err? ==> r.error == TooFewValues(line)
    ensures r.Ok? ==>
      && r.value.labels == w.labels
      && |r.value.words| == |w.words| + 1 && r.value.words[..|w.words|] == w.words
      && RecordFor(w.labels, Split(line, '/'), r.value.words[|w.words|])
  {
    match MakeRecord(w.labels, line)
    case Err(e) => Err(e)
    case Ok(rec) =>
      MakeRecordSpec(w.labels, line);
      Ok(WordLabel(w.labels, w.words + [rec]))
  }

  // ---------------------------------------------------------------------------
  // Reading the lines

  /** The well-formedness every parsed table has: `labels` and `words` share
      their keys, each WordLabel's header starts with its own key and
      continues with that key's sublabels, and every record has exactly the
      header parts as keys. */
  ghost predicate TableOk(labels: map<string, seq<string>>, words: map<string, WordLabel>) {
    && labels.Keys == words.Keys
    && forall name :: name in words ==>
         && |words[name].labels| >= 1
         && words[name].labels[0] == name
         && labels[name] == words[name].labels[1..]
         && forall k :: 0 <= k < |words[name].words| ==>
              words[name].words[k].Keys == (set i | 0 <= i < |words[name].labels| :: words[name].labels[i])
  }

  /** The state of WordList.__readWords between lines: the split header of the
      open block (`None` after a blank line) and the tables built so far. */
  datatype Reader = Reader(current: Option<seq<string>>, labels: map<string, seq<string>>, words: map<string, WordLabel>)

  ghost predicate ReaderOk(rd: Reader) {
    && TableOk(rd.labels, rd.words)
    && (rd.current.Some? ==>
          |rd.current.value| >= 1 && rd.current.value[0] in rd.words
          && rd.words[rd.current.value[0]].labels == rd.current.value)
  }

  /** One line of __readWords: a blank line closes the block; a line read while
      no block is open declares a label, replacing any earlier block of that
      name; any other line is a word option of the open block. */
  function ReadLine(rd: Reader, raw: string): (r: Result<Reader>)
    requires ReaderOk(rd)
    ensures r.Ok? ==> ReaderOk(r.value)
    ensures r.Err? ==> r.error.TooFewValues?
  {
    var line := Strip(raw);
    if line == "" then
      Ok(rd.(current := None))
    else if rd.current.None? then
      var header := Split(line, '/');
      DeclareKeeps(rd, header);
      Ok(Declare(rd, header))
    else
      var name := rd.current.value[0];
      match AddWordOption(rd.words[name], line)
      case Err(e) => Err(e)
      case Ok(w) =>
        AppendKeeps(rd, line, w);
        Ok(rd.(words := rd.words[name := w]))
  }

  /** Opening a block: `labels[header[0]] = header[1:]` and a fresh WordLabel,
      replacing whatever that name held before. */
  function Declare(rd: Reader, header: seq<string>): Reader
    requires |header| >= 1
  {
    Reader(Some(header), rd.labels[header[0] := header[1..]], rd.words[header[0] := WordLabel(header, [])])
  }

  lemma {:induction false} DeclareKeeps(rd: Reader, header: seq<string>)
    requires ReaderOk(rd) && |header| >= 1
    ensures ReaderOk(Declare(rd, header))
  {
    var r := Declare(rd, header);
    forall name | name in r.words
      ensures |r.words[name].labels| >= 1 && r.words[name].labels[0] == name
      ensures r.labels[name] == r.words[name].labels[1..]
    {
      if name != header[0] {
        assert r.words[name] == rd.words[name];
      }
    }
  }

  lemma {:induction false} AppendKeeps(rd: Reader, line: string, w: WordLabel)
    requires ReaderOk(rd) && rd.current.Some?
    requires AddWordOption(rd.words[rd.current.value[0]], line) == Ok(w)
    ensures ReaderOk(rd.(words := rd.words[rd.current.value[0] := w]))
  {
    var name := rd.current.value[0];
    var prev := rd.words[name];
    var n := |prev.words|;
    var header := set i | 0 <= i < |w.labels| :: w.labels[i];
    assert w.labels == prev.labels;
    forall k | 0 <= k < |w.words| ensures w.words[k].Keys == header {
      if k < n {
        assert w.words[k] == w.words[..n][k] == prev.words[k];
      }
    }
  }

  /** The loop of __readWords over the remaining lines. */
  function ReadLines(rd: Reader, lines: seq<string>): (r: Result<Reader>)
    requires ReaderOk(rd)
    ensures r.Ok? ==> ReaderOk(r.value)
    ensures r.Err? ==> r.error.TooFewValues?
    decreases |lines|
  {
    if |lines| == 0 then Ok(rd)
    else
      match ReadLine(rd, lines[0])
      case Err(e) => Err(e)
      case Ok(next) => ReadLines(next, lines[1..])
  }

  /** WordList.__init__ with the file replaced by its first line and its
      remaining lines. */
  function ParseWordList(titleLine: string, lines: seq<string>): (r: Result<WordList>)
    ensures r.Ok? ==> r.value.name == Strip(titleLine) && TableOk(r.value.labels, r.value.words)
    ensures r.Ok? <==> ReadLines(Reader(None, map[], map[]), lines).Ok?
    ensures r.Ok? ==>
      var rd := ReadLines(Reader(None, map[], map[]), lines).value;
      r.value.labels == rd.labels && r.value.words == rd.words
  {
    match ReadLines(Reader(None, map[], map[]), lines)
    case Err(e) => Err(e)
    case Ok(rd) => Ok(WordList(Strip(titleLine), rd.labels, rd.words))
  }

  // ---------------------------------------------------------------------------
  // What reading a block does

  predicate NonBlank(lines: seq<string>) {
    forall i :: 0 <= i < |lines| ==> Strip(lines[i]) != ""
  }

  lemma {:induction false} NonBlankTail(lines: seq<string>)
    requires NonBlank(lines) && |lines| > 0
    ensures NonBlank(lines[1..])
  {
    forall i | 0 <= i < |lines| - 1 ensures Strip(lines[1..][i]) != "" { assert lines[1..][i] == lines[i + 1]; }
  }

  /** The records a block's option lines make, failing at the first line with
      too few values. */
  function Records(header: seq<string>, opts: seq<string>): Result<seq<Record>>
    decreases |opts|
  {
    if |opts| == 0 then Ok([])
    else
      match MakeRecord(header, Strip(opts[0]))
      case Err(e) => Err(e)
      case Ok(r) =>
        match Records(header, opts[1..])
        case Err(e) => Err(e)
        case Ok(rs) => Ok([r] + rs)
  }

  /** Reading is a left fold: the lines `a + b` are read by reading `a`, then
      `b` from where `a` left off. */
  lemma {:induction false} ReadLinesAppend(rd: Reader, a: seq<string>, b: seq<string>)
    requires ReaderOk(rd)
    ensures ReadLines(rd, a + b) ==
      match ReadLines(rd, a)
      case Err(e) => Err(e)
      case Ok(mid) => ReadLines(mid, b)
    decreases |a|
  {
    if |a| == 0 {
      assert a + b == b;
    } else {
      assert (a + b)[0] == a[0] && (a + b)[1..] == a[1..] + b;
      var step := ReadLine(rd, a[0]);
      if step.Ok? {
        var next := step.value;
        assert ReadLines(rd, a + b) == ReadLines(next, a[1..] + b);
        assert ReadLines(rd, a) == ReadLines(next, a[1..]);
        ReadLinesAppend(next, a[1..], b);
      }
    }
  }

  /** Option lines of an open block append their records, in order, to that
      block's WordLabel and change nothing else. */
  lemma {:induction false} ReadOptions(rd: Reader, opts: seq<string>, acc: seq<Record>)
    requires ReaderOk(rd) && rd.current.Some? && NonBlank(opts)
    requires rd.words[rd.current.value[0]] == WordLabel(rd.current.value, acc)
    ensures ReadLines(rd, opts) == ReadOptionsResult(rd, opts, acc)
    decreases |opts|, 1
  {
    var header := rd.current.value;
    if |opts| == 0 {
      assert acc + [] == acc;
      assert rd.words[header[0] := WordLabel(header, acc)] == rd.words;
    } else if MakeRecord(header, Strip(opts[0])).Err? {
      ReadOptionLine(rd, opts[0], acc);
    } else {
      ReadOptionsCons(rd, opts, acc);
    }
  }

  /** What ReadOptions promises: the block's records appended to `acc`, or the
      first failing line's error. */
  function ReadOptionsResult(rd: Reader, opts: seq<string>, acc: seq<Record>): Result<Reader>
    requires rd.current.Some? && |rd.current.value| >= 1
  {
    var header := rd.current.value;
    match Records(header, opts)
    case Err(e) => Err(e)
    case Ok(rs) => Ok(rd.(words := rd.words[header[0] := WordLabel(header, acc + rs)]))
  }

  lemma {:induction false} ReadOptionsCons(rd: Reader, opts: seq<string>, acc: seq<Record>)
    requires ReaderOk(rd) && rd.current.Some? && NonBlank(opts) && |opts| > 0
    requires rd.words[rd.current.value[0]] == WordLabel(rd.current.value, acc)
    requires MakeRecord(rd.current.value, Strip(opts[0])).Ok?
    ensures ReadLines(rd, opts) == ReadOptionsResult(rd, opts, acc)
    decreases |opts|, 0
  {
    var header := rd.current.value;
    var name := header[0];
    var rec := MakeRecord(header, Strip(opts[0])).value;
    ReadOptionLine(rd, opts[0], acc);
    var next := rd.(words := rd.words[name := WordLabel(header, acc + [rec])]);
    assert ReadLines(rd, opts) == ReadLines(next, opts[1..]);
    NonBlankTail(opts);
    ReadOptions(next, opts[1..], acc + [rec]);
    RecordsCons(rd, next, opts, acc, rec);
  }

  lemma {:induction false} RecordsCons(rd: Reader, next: Reader, opts: seq<string>, acc: seq<Record>, rec: Record)
    requires rd.current.Some? && |rd.current.value| >= 1 && |opts| > 0
    requires MakeRecord(rd.current.value, Strip(opts[0])) == Ok(rec)
    requires next == rd.(words := rd.words[rd.current.value[0] := WordLabel(rd.current.value, acc + [rec])])
    ensures ReadOptionsResult(next, opts[1..], acc + [rec]) == ReadOptionsResult(rd, opts, acc)
  {
    var header := rd.current.value;
    var name := header[0];
    var tail := Records(header, opts[1..]);
    RecordsStep(header, opts, rec);
    if tail.Ok? {
      var rs := tail.value;
      assert acc + [rec] + rs == acc + ([rec] + rs);
      var w := WordLabel(header, acc + ([rec] + rs));
      assert next.words[name := w] == rd.words[name := w];
    }
  }

  /** The first option line's record heads the block's records. */
  lemma {:induction false} RecordsStep(header: seq<string>, opts: seq<string>, rec: Record)
    requires |opts| > 0 && MakeRecord(header, Strip(opts[0])) == Ok(rec)
    ensures Records(header, opts) ==
      match Records(header, opts[1..])
      case Err(e) => Err(e)
      case Ok(rs) => Ok([rec] + rs)
  {
  }

  /** One option line of an open block. */
  lemma {:induction false} ReadOptionLine(rd: Reader, raw: string, acc: seq<Record>)
    requires ReaderOk(rd) && rd.current.Some? && Strip(raw) != ""
    requires rd.words[rd.current.value[0]] == WordLabel(rd.current.value, acc)
    ensures var header := rd.current.value;
      ReadLine(rd, raw) ==
        match MakeRecord(header, Strip(raw))
        case Err(e) => Err(e)
        case Ok(rec) => Ok(rd.(words := rd.words[header[0] := WordLabel(header, acc + [rec])]))
  {
  }

  /** A block read after a blank line: its header line declares the label
      (label name = first '/'-part, sublabels = the other parts), replacing any
      earlier block of that name, and its option lines become its records; the
      block fails exactly when one of its option lines has too few values. */
  lemma {:induction false} ReadBlock(rd: Reader, h: string, opts: seq<string>)
    requires ReaderOk(rd) && rd.current.None? && Strip(h) != "" && NonBlank(opts)
    ensures var header := Split(Strip(h), '/');
      ReadLines(rd, [h] + opts) ==
        match Records(header, opts)
        case Err(e) => Err(e)
        case Ok(rs) =>
          Ok(Reader(Some(header), rd.labels[header[0] := header[1..]], rd.words[header[0] := WordLabel(header, rs)]))
  {
    var header := Split(Strip(h), '/');
    var declared := Declare(rd, header);
    DeclareKeeps(rd, header);
    HeaderLine(rd, h, opts);
    ReadOptions(declared, opts, []);
    DeclaredResult(rd, header, opts);
  }

  /** A header line read while no block is open declares its label; the lines
      after it are read from there. */
  lemma {:induction false} HeaderLine(rd: Reader, h: string, opts: seq<string>)
    requires ReaderOk(rd) && rd.current.None? && Strip(h) != ""
    ensures |Split(Strip(h), '/')| >= 1
    ensures ReaderOk(Declare(rd, Split(Strip(h), '/')))
    ensures ReadLines(rd, [h] + opts) == ReadLines(Declare(rd, Split(Strip(h), '/')), opts)
  {
    var header := Split(Strip(h), '/');
    DeclareKeeps(rd, header);
    assert ReadLine(rd, h) == Ok(Declare(rd, header));
    assert ([h] + opts)[0] == h && ([h] + opts)[1..] == opts;
  }

  lemma {:induction false} DeclaredResult(rd: Reader, header: seq<string>, opts: seq<string>)
    requires |header| >= 1
    ensures ReadOptionsResult(Declare(rd, header), opts, []) ==
        match Records(header, opts)
        case Err(e) => Err(e)
        case Ok(rs) =>
          Ok(Reader(Some(header), rd.labels[header[0] := header[1..]], rd.words[header[0] := WordLabel(header, rs)]))
  {
    var declared := Declare(rd, header);
    match Records(header, opts)
    case Err(e) =>
    case Ok(rs) =>
      assert [] + rs == rs;
      assert declared.words[header[0] := WordLabel(header, rs)] == rd.words[header[0] := WordLabel(header, rs)];
  }

  /** Duplicate label blocks: whatever the lines before declared, a later block
      of the same name, after a blank line, replaces the earlier one entirely,
      and every other label keeps what the earlier lines gave it. */
  lemma {:induction false} LaterBlockReplaces(rd: Reader, before: seq<string>, blank: string, h: string, opts: seq<string>)
    requires ReaderOk(rd) && Strip(blank) == "" && Strip(h) != "" && NonBlank(opts)
    requires ReadLines(rd, before).Ok?
    requires Records(Split(Strip(h), '/'), opts).Ok?
    ensures var header := Split(Strip(h), '/');
      var mid := ReadLines(rd, before).value;
      var rs := Records(header, opts).value;
      ReadLines(rd, before + [blank] + [h] + opts) ==
        Ok(Reader(Some(header), mid.labels[header[0] := header[1..]], mid.words[header[0] := WordLabel(header, rs)]))
  {
    var mid := ReadLines(rd, before).value;
    var rest := [blank] + ([h] + opts);
    assert before + [blank] + [h] + opts == before + rest;
    ReadLinesAppend(rd, before, rest);
    BlankThenBlock(mid, blank, h, opts);
  }

  lemma {:induction false} BlankThenBlock(mid: Reader, blank: string, h: string, opts: seq<string>)
    requires ReaderOk(mid) && Strip(blank) == "" && Strip(h) != "" && NonBlank(opts)
    requires Records(Split(Strip(h), '/'), opts).Ok?
    ensures var header := Split(Strip(h), '/');
      var rs := Records(header, opts).value;
      ReadLines(mid, [blank] + ([h] + opts)) ==
        Ok(Reader(Some(header), mid.labels[header[0] := header[1..]], mid.words[header[0] := WordLabel(header, rs)]))
  {
    BlankLine(mid, blank, [h] + opts);
    ReadBlock(mid.(current := None), h, opts);
  }

  /** A blank line closes the open block and changes nothing else. */
  lemma {:induction false} BlankLine(rd: Reader, blank: string, rest: seq<string>)
    requires ReaderOk(rd) && Strip(blank) == ""
    ensures ReaderOk(rd.(current := None))
    ensures ReadLines(rd, [blank] + rest) == ReadLines(rd.(current := None), rest)
  {
    assert ReadLine(rd, blank) == Ok(rd.(current := None));
    assert ([blank] + rest)[0] == blank && ([blank] + rest)[1..] == rest;
  }
}
